=== FILE: README.md ===
# Storage backends of gluesql-js, modelled in Dafny

gluesql-js gives the GlueSQL engine three storage backends behind one
interface of three capabilities:
- `Store` reads: `fetch_schema` and `scan_data`.
- `StoreMut` mutates: `generate_id`, `insert_schema`, `delete_schema`,
  `insert_data` and `delete_data`.
- `AlterTable` alters: `rename_schema`, `rename_column`, `add_column` and
  `drop_column`.

Every mutation takes the storage by value. It returns either the new storage
with a value, or a storage with an error. The model writes this as
`MutResult<S, T> = Done(store, value) | Failed(store, error)`.

The project models two backends:

- `MemoryStorage` keeps three things: a schema map, a data map from table name
  to an ordered list of `(id, row)` entries, and one id counter shared by
  every table.
- `LocalStorage` and `SessionStorage` come from one macro and share one model,
  `WebStorage`. The browser store is a map from key to blob. Each table has
  three keys, `__gluesql-v0.2__/<namespace>/{id,schema,data}/<table>`. The
  whole row list is read, changed and written back as one blob on every
  mutation. Decoding is type-directed: a blob decodes as a key record, a
  schema or a row list, and a blob of any other kind is a decoding error.

Modules:
- `Entities`: the vocabulary. Values, columns, schemas, keys, errors, results,
  and the evaluator.
- `Seqs`: first-match search and removal by position.
- `Items`: the row-list algorithms both backends share. Upsert, remove-first,
  append to every row, drop from every row, and a reference lookup.
- `Columns`: column lookup, column rename, and the fill value of ADD COLUMN.
- `MemoryStorage` and `WebStorage`: the operations, one function each.
- `MemoryProperties` and `WebProperties`: properties that span several
  operations. Ids are never reissued, rows stay aligned with columns, and some
  sequences round-trip.
- `Findings`: the defects, shown on the code as written, and corrected
  operations.
- `Agreement`: the two backends show the same tables after the same
  operations. It uses the corrected RENAME TABLE.
- `Scenarios`: one concrete ALTER TABLE run on each backend.

The two backends implement one interface but do not behave alike in five
places. The model keeps each backend's behaviour as its code has it:
- The in-memory backend keeps one id counter for all tables, so one table's
  ids skip those issued to other tables. The keyed backend counts per table.
- The keyed `generate_id`, `fetch_schema` and `scan_data` fail when a stored
  blob does not decode. Their in-memory counterparts never fail.
- The in-memory RENAME TABLE leaves nothing under the old name. The keyed one
  leaves the old row blob and the id record in place.
- The in-memory RENAME TABLE always gives the new name the old name's rows,
  and no rows when the old name had none. The keyed one copies the row blob
  only when the old name has one. Otherwise the new name keeps any rows its
  data key already held, for instance rows left there by an earlier rename.
- The ownership-return interface hands a failing call's storage back to the
  caller, who expects it untouched. The keyed ADD COLUMN and DROP COLUMN can
  fail after they have written the schema.

The last three points are recorded as findings below.

## Model

| member | source | states |
|---|---|---|
| Seqs.FirstIndex | src/memory_storage.rs:98 | `position`: the first index satisfying the predicate; no earlier index does; `None` exactly when no index does |
| Seqs.RemoveAt | src/memory_storage.rs:416-420 | removing one position keeps every earlier element and shifts every later one down by one |
| Seqs.RemoveAtAppended | src/memory_storage.rs:416-420 | removing the last position of `s + [x]` gives back `s` |
| Items.IdPositionFindsLookup | src/memory_storage.rs:98 | the id scan finds a position exactly when the id is in the list, and the row there is the first one with that id (reference `Lookup`) |
| Items.Upsert | src/memory_storage.rs:98-105 | an id already present: exactly its first entry is replaced by `(id, row)` and nothing else changes; an absent id: `(id, row)` is appended; afterwards the id looks up to the new row and every other id looks up as before |
| Items.RemoveFirst | src/memory_storage.rs:131-133 | an absent id changes nothing; otherwise exactly the first entry with that id is cut out, and every other id looks up as before |
| Items.UpsertKeepsDistinct | src/memory_storage.rs:98-105 | an upsert into a list with distinct ids keeps them distinct |
| Items.RemoveFirstDistinct | src/memory_storage.rs:131-133 | in a list with distinct ids, removal leaves no entry with that id and keeps the ids distinct |
| Items.AppendValue | src/memory_storage.rs:342-349 | every row keeps its id and gains the value at its end |
| Items.DropValue | src/memory_storage.rs:405-412 | every row keeps its id and loses the value at the position |
| Items.AppendThenDrop | src/memory_storage.rs:405-412 | when every row has n values, dropping position n after appending a value restores the list |
| Items.UpsertKeepsLength | src/memory_storage.rs:98-105 | an upsert of a row of length n keeps every row at length n |
| Items.RemoveFirstKeepsLength | src/memory_storage.rs:131-133 | a removal keeps every row at length n |
| Items.AppendValueLength | src/memory_storage.rs:342-349 | appending turns rows of length n into rows of length n + 1 |
| Items.DropValueLength | src/memory_storage.rs:405-412 | dropping a position below n turns rows of length n into rows of length n - 1 |
| Columns.HasColumnIffPosition | src/memory_storage.rs:274-277 | the `any` duplicate test and the `position` search agree on whether a column name exists |
| Columns.RenameColumnAt | src/memory_storage.rs:246 | only the name of column i changes; its type, its options and every other column stay |
| Columns.FirstDefault | src/memory_storage.rs:302-309 | the first `DEFAULT` option in order, or none exactly when there is no `DEFAULT` |
| Columns.FillValue | src/memory_storage.rs:299-329 | the fill value is the first `DEFAULT` evaluated with the column's nullability; without a default, a nullable column gets its type's null; otherwise `DefaultValueRequired` |
| Columns.AppendFreshColumn | src/memory_storage.rs:274-293 | appending a column with a new name keeps names unique and puts that name last |
| MemoryStorage.New | src/memory_storage.rs:23-32 | a new storage has no tables and its counter at 0 |
| MemoryStorage.FetchSchema | src/memory_storage.rs:148-152 | a schema is returned exactly when the table has one, and it is the stored `schema_map[table]` |
| MemoryStorage.ScanData | src/memory_storage.rs:154-173 | the table's rows in list order, each under the key (table, id); nothing for a table without rows |
| MemoryStorage.GenerateId | src/memory_storage.rs:37-51 | always succeeds; the id is the previous counter plus one and becomes the counter; no table changes |
| MemoryStorage.InsertSchema | src/memory_storage.rs:53-63 | the schema is filed under its own table name, with that table's rows and every other table unchanged |
| MemoryStorage.DeleteSchema | src/memory_storage.rs:65-81 | the table reads back with no schema and no rows, even if it was absent; other tables are unchanged |
| MemoryStorage.InsertData | src/memory_storage.rs:83-115 | the table's rows become the upsert of the row under the key's id; the schema and other tables are unchanged |
| MemoryStorage.DeleteData | src/memory_storage.rs:117-143 | the table's rows lose the first entry with the key's id; the schema and other tables are unchanged |
| MemoryStorage.RenameSchema | src/memory_storage.rs:189-223 | a missing table gives `TableNotFound` with the storage unchanged; otherwise the renamed schema and the rows move to the new name and the old name is left empty; renaming a table to its own name deletes its schema |
| MemoryStorage.RenameColumn | src/memory_storage.rs:225-263 | `TableNotFound`, `RenamingColumnNotFound`, or only the first column with the old name renamed, with the rows untouched |
| MemoryStorage.AddColumn | src/memory_storage.rs:265-361 | `TableNotFound`, `AddingColumnAlreadyExists` and the fill-value errors all return the storage unchanged; on success the column is appended to the schema and the fill value to every row; when the table exists, the name is new and the fill value evaluates, the call succeeds |
| MemoryStorage.DropColumn | src/memory_storage.rs:363-436 | `TableNotFound`; a missing column is an unchanged success under IF EXISTS and `DroppingColumnNotFound` otherwise; on success the first such column and the same position of every row go, and the schema is rebuilt under the table's name |
| WebStorage.KeyInjective | src/web_storage.rs:68-78 | two keys of one namespace are equal exactly when their roles and table names are |
| WebStorage.LoadRows | src/web_storage.rs:128-135 | an absent data key reads as no rows; a row-list blob reads as its entries; any other blob is `Storage` at that key |
| WebStorage.FetchSchema | src/web_storage.rs:181-190 | an absent schema key means no table; a schema blob reads back as that schema; any other blob is the `Storage` error at the schema key |
| WebStorage.ScanData | src/web_storage.rs:192-217 | the stored rows in order under the requested table's name; an error exactly when the row blob does not decode, and then it is `Storage` at the data key |
| WebStorage.GenerateId | src/web_storage.rs:83-103 | an undecodable record fails with nothing written; otherwise the new id is the stored id plus one (1 when there is no record) and is written back; only the table's id key changes |
| WebStorage.InsertSchema | src/web_storage.rs:105-112 | the schema is written under its table's schema key, and nothing else changes |
| WebStorage.DeleteSchema | src/web_storage.rs:114-122 | both the schema key and the data key are absent afterwards, so the table reads as missing with no rows; the id record and every other key stay |
| WebStorage.InsertData | src/web_storage.rs:124-154 | an undecodable row blob fails with nothing written; otherwise the blob becomes the upserted list |
| WebStorage.DeleteData | src/web_storage.rs:156-176 | an undecodable row blob fails with nothing written; otherwise the blob loses the first entry with the id |
| WebStorage.RenameSchema | src/web_storage.rs:222-254 | the errors come before any write; the renamed schema moves to the new key, the row blob is copied, and the old row blob stays |
| WebStorage.RenameColumn | src/web_storage.rs:256-284 | the same errors as in memory, none of them writing; on success only the schema key changes |
| WebStorage.AddColumn | src/web_storage.rs:286-371 | the errors up to the fill value write nothing; past them the widened schema is written, then either the widened rows or, when the row blob does not decode, a `Storage` error after that write, with the undecodable blob left as it was; only the table's schema and data keys change |
| WebStorage.DropColumn | src/web_storage.rs:373-433 | the missing-table and missing-column cases as in memory, with nothing written; for a present column the narrowed schema, keeping its stored name, is written, then either the rows lose the same position or, when the row blob does not decode, a `Storage` error follows that write, with the undecodable blob left as it was |
| MemoryProperties.StepCounter | src/memory_storage.rs:37-51 | only `generate_id` moves the shared counter, and it moves it to the id it issues |
| MemoryProperties.RunIssuesIncreasingIds | src/memory_storage.rs:37-51 | along any sequence of operations, successes and failures alike, the issued ids strictly increase, so no id is issued twice |
| MemoryProperties.GeneratedIdIsFresh | src/memory_storage.rs:37-51 | while every stored id is at most the counter, a generated id is in no table, so inserting with it appends |
| MemoryProperties.InsertDataKeepsIdsIssued | src/memory_storage.rs:83-115 | inserting under an issued id keeps every stored id at most the counter |
| MemoryProperties.AlignedDropSafe | src/memory_storage.rs:405-412 | when every row matches its schema's width, `drop_column` never panics |
| MemoryProperties.AddColumnKeepsAligned | src/memory_storage.rs:342-352 | ADD COLUMN keeps every row as wide as its schema |
| MemoryProperties.DropColumnKeepsAligned | src/memory_storage.rs:405-427 | DROP COLUMN keeps every row as wide as its schema |
| MemoryProperties.StepKeepsAligned | src/memory_storage.rs:265-436 | every operation whose schema or row fits keeps all tables aligned and never panics |
| MemoryProperties.StepKeepsDistinctRows | src/memory_storage.rs:83-143 | every operation keeps the ids within each table distinct |
| MemoryProperties.RunKeepsDistinctRows | src/memory_storage.rs:83-143 | along any run from a store with distinct ids (a new store among them) the ids within each table stay distinct |
| MemoryProperties.StepKeepsSelfNamed | src/memory_storage.rs:198-206 | every operation keeps each schema filed under the table name it carries |
| MemoryProperties.AddThenDropRestores | src/memory_storage.rs:265-436 | ADD COLUMN followed by DROP COLUMN of the same name restores every schema and every row |
| MemoryProperties.RenameBackRestores | src/memory_storage.rs:189-223 | renaming a table to a free name and back restores every table |
| MemoryProperties.InsertThenScan | src/memory_storage.rs:98-105 | after an insert, the scan shows the row under its key; an update keeps every key's place; a new id appears last |
| WebProperties.OtherTableKeys | src/web_storage.rs:68-78 | no key of one table is a key of another table |
| WebProperties.CounterIsPerTable | src/web_storage.rs:83-103 | generating an id for one table leaves every other table's counter alone |
| WebProperties.IdsNotReissuedAfterDrop | src/web_storage.rs:114-122 | after DROP TABLE the next id for the same name continues the old count |
| WebProperties.GeneratedIdIsFresh | src/web_storage.rs:83-103 | while a table's ids are at most its counter, a generated id is not among its rows, and the insert that follows keeps that true |
| WebProperties.FailuresWriteNothing | src/web_storage.rs:12-37 | the failures of `insert_data`, `delete_data`, `generate_id`, `rename_schema` and `rename_column` return the storage unchanged |
| WebProperties.AddColumnEarlyFailuresWriteNothing | src/web_storage.rs:291-343 | every `add_column` failure other than an undecodable row blob writes nothing |
| WebProperties.DropMissingColumnWritesNothing | src/web_storage.rs:393-404 | a missing column is an unchanged success under IF EXISTS and an unchanged `DroppingColumnNotFound` otherwise |
| Findings.MemoryRenameToSameNameDropsSchema | src/memory_storage.rs:206-207 | as written, renaming a table to its own name succeeds and deletes its schema |
| Findings.WebRenameToSameNameDropsSchema | src/web_storage.rs:240-243 | the same for the keyed backend |
| Findings.MemoryRenameSchema | src/memory_storage.rs:189-223 | corrected: a rename to the table's own name keeps the table; all other cases as written |
| Findings.CorrectedRenameToSameNameKeepsTable | src/memory_storage.rs:206-207 | with the correction, renaming a table to its own name changes nothing a reader sees |
| Findings.StaleRowsUnderNewName | src/web_storage.rs:249-251 | as written, a table without a row blob renamed onto a name whose data key holds rows scans those rows under the new name |
| Findings.RenamedRowsResurface | src/web_storage.rs:245-251 | as written, a table created under a renamed table's old name already holds the old rows |
| Findings.RenameReissuesIds | src/web_storage.rs:222-254 | as written, after a rename to a fresh name the next id is 1 again, and the insert with it overwrites the row that already has id 1 |
| Findings.WebRenameSchema | src/web_storage.rs:222-254 | corrected keyed rename: the schema and the rows move to the new name, and the id record is copied to it (the old one stays); the old schema and data keys are removed; a rename to the same name keeps the table |
| Findings.CorrectedRenameKeepsIdsIssued | src/web_storage.rs:222-254 | with the corrected rename, the ids under the new name stay at most its counter, so generated ids are fresh there |
| Findings.AddColumnPartialWrite | src/web_storage.rs:345-351 | as written, an undecodable row blob makes `add_column` fail after the widened schema is written |
| Findings.DropColumnPartialWrite | src/web_storage.rs:406-413 | as written, the same for `drop_column` |
| Findings.WebAddColumn | src/web_storage.rs:286-371 | corrected: every failure writes nothing; errors and successes are those of the code as written |
| Findings.WebDropColumn | src/web_storage.rs:373-433 | corrected: the same for DROP COLUMN |
| Agreement.NewAgree | src/memory_storage.rs:23-32 | a new in-memory storage and an empty keyed namespace show the same (no) tables |
| Agreement.ReadsAgree | src/web_storage.rs:181-217 | storages that agree answer `fetch_schema` and `scan_data` alike |
| Agreement.InsertSchemaAgrees | src/web_storage.rs:105-112 | `insert_schema` keeps the backends agreeing |
| Agreement.DeleteSchemaAgrees | src/web_storage.rs:114-122 | `delete_schema` keeps the backends agreeing |
| Agreement.InsertDataAgrees | src/web_storage.rs:124-154 | `insert_data` succeeds on both backends and keeps them agreeing |
| Agreement.DeleteDataAgrees | src/web_storage.rs:156-176 | `delete_data` succeeds on both backends and keeps them agreeing |
| Agreement.RenameColumnAgrees | src/web_storage.rs:256-284 | `rename_column` has the same outcome and error on both backends and keeps them agreeing |
| Agreement.AddColumnAgrees | src/web_storage.rs:286-371 | `add_column` has the same outcome and error on both backends and keeps them agreeing |
| Agreement.DropSafeAgrees | src/web_storage.rs:373-433 | on agreeing stores `drop_column` is panic-free on both backends or on neither |
| Agreement.DropColumnAgrees | src/web_storage.rs:373-433 | when `drop_column` is panic-free in memory it is so on the keyed store too, has the same outcome and error on both, and keeps them agreeing |
| Agreement.GenerateIdAgrees | src/web_storage.rs:83-103 | issuing an id changes no table on either backend |
| Agreement.RenameOntoRowsDiverges | src/web_storage.rs:249-251 | as written, renaming a table without a row blob onto a name that holds rows leaves the backends disagreeing about the new name |
| Agreement.RenameDiverges | src/web_storage.rs:245-251 | as written, `rename_schema` of a table with rows leaves the backends disagreeing about the old name |
| Agreement.CorrectedRenameAgrees | src/web_storage.rs:222-254 | the corrected renames have the same outcome and error on both backends and keep them agreeing |
| Scenarios.MemoryAddThenDrop | src/memory_storage.rs:265-436 | a concrete run on `t(a INT NOT NULL, b INT NULL)` with row `(1, NULL)`: ADD COLUMN `c DEFAULT 7` gives `(1, NULL, 7)`; then DROP COLUMN `b` gives `(1, 7)` with columns `(a, c)` |
| Scenarios.WebAddThenDrop | src/web_storage.rs:286-433 | the same run on the keyed backend |

## Left out

- Integer width: ids are unbounded naturals. The `u64` counter's overflow
  at `id + 1` is not modelled, since it is unreachable in practice.
- MemoryStorage.GenerateId: does not model the `u64` wrap-around of `self.id + 1`, for the reason above.
- WebStorage.GenerateId: does not model the `u64` wrap-around of `id + 1`, for the reason above.
- MemoryStorage.DropColumn: requires `DropSafe`. Under that condition no
  row is too short for `Vec::remove`; a shorter row makes the code panic,
  which has no result to model. `MemoryProperties.AlignedDropSafe` shows that
  the condition holds whenever rows match their schema.
- WebStorage.DropColumn: requires `DropSafe`, for the same reason.
- Findings.WebDropColumn: requires `DropSafe`, for the same reason.
- Agreement.DropColumnAgrees: requires the in-memory schemas to carry their
  own table names. `MemoryProperties.StepKeepsSelfNamed` shows every
  operation keeps this.
- Serialisation: serde JSON text is modelled as a typed blob. `to_string` is
  treated as infallible, and `from_str` as succeeding exactly on a blob of the
  expected kind. A decoding error is `Storage(key)` rather than serde's
  message.
- Error texts: `DefaultValueRequired` carries the column definition, not its
  `to_string()` text.
- Value evaluation: `Value::from_expr` and `Value::from_data_type` belong to
  the engine. They are the two function parameters of `Evaluator`. `Float` is
  carried as opaque bits, and no arithmetic is modelled.
- The wasm-bindgen `getItem`/`setItem`/`removeItem` calls are map reads and
  writes on the modelled store. `as_string()` on a non-string result is not
  modelled: the store only holds strings.
- `async`, `im`'s structural sharing and the `Clone` costs are left out. Each
  operation is a pure function on an immutable value.
- Id generation is not part of `Agreement`. The in-memory counter is shared
  by all tables, and the keyed counter is per table, so the issued ids differ
  by design. Each side's freshness property is proved on its own.
- `src/lib.rs` (the JavaScript binding `Glue`), `src/convert.rs` (conversion
  of results to JavaScript values) and the tests are not part of this model.

## Findings

| source | as written | input that shows it | evidently intended | confidence | as-written member | corrected member |
|---|---|---|---|---|---|---|
| src/memory_storage.rs:206-207 | the new slot is written, then the old slot is removed | `ALTER TABLE t RENAME TO t` on an existing table `t` | the table is kept under its name | not executed | Findings.MemoryRenameToSameNameDropsSchema | Findings.MemoryRenameSchema |
| src/web_storage.rs:242-243 | `set_item` on the new schema key, then `remove_item` on the old one, which is the same key | `ALTER TABLE t RENAME TO t` on an existing table `t` | the table is kept under its name | not executed | Findings.WebRenameToSameNameDropsSchema | Findings.WebRenameSchema |
| src/web_storage.rs:245-251 | the row blob is copied to the new data key and the old data key is never removed | rename `t` (holding rows) to `u`, then create a new table `t` | the new `t` is empty, as in memory | not executed | Findings.RenamedRowsResurface | Agreement.CorrectedRenameAgrees |
| src/web_storage.rs:249-251 | the row blob is copied only when the old name has one, so the new data key is otherwise left as it was | rename `t` (no row blob) to `u` whose data key holds rows, then scan `u` | `u` is empty, as in memory | not executed | Findings.StaleRowsUnderNewName | Agreement.CorrectedRenameAgrees |
| src/web_storage.rs:222-254 | the id record stays under the old name | rename `t` (holding id 1) to an unused name `u`, then `generate_id(u)` and `insert_data` | the next id for `u` continues `t`'s count, and the insert appends | not executed | Findings.RenameReissuesIds | Findings.CorrectedRenameKeepsIdsIssued |
| src/web_storage.rs:345-351 | the widened schema is written before the row blob is decoded | `add_column` on a table whose data key holds a blob that is not a row list | a failure returns the storage unchanged | not executed | Findings.AddColumnPartialWrite | Findings.WebAddColumn |
| src/web_storage.rs:406-413 | the narrowed schema is written before the row blob is decoded | `drop_column` of an existing column on a table whose data key holds a blob that is not a row list | a failure returns the storage unchanged | not executed | Findings.DropColumnPartialWrite | Findings.WebDropColumn |

=== FILE: agreement.dfy ===
/** The two backends implement one interface, and a caller should not be able
    to tell them apart by what it reads back: every table's schema and rows.
    `Agree` relates an in-memory store to a keyed store that shows the same
    tables; each operation, applied to both, keeps them agreeing and has the
    same outcome and the same error on both sides. RENAME TABLE is the
    exception: as written the keyed backend leaves the old rows behind, and
    the agreement holds for the corrected renames. Id generation is left out
    of the agreement by design: one counter is shared by all tables in
    memory, one per table in the keyed store. */
module Agreement {
  import opened Entities
  import opened Items
  import opened Columns
  import MemoryStorage
  import WebStorage
  import MemoryProperties
  import Findings

  /** Table `t` reads back the same schema and the same rows from both. */
  ghost predicate AgreeOn(ms: MemoryStorage.MemoryStore, ws: WebStorage.WebStore, t: string) {
    && WebStorage.FetchSchema(ws, t) == Ok(MemoryStorage.FetchSchema(ms, t))
    && WebStorage.LoadRows(ws.kv, WebStorage.DataPrefix(ws.namespace, t)) == Ok(MemoryStorage.Rows(ms, t))
  }

  ghost predicate Agree(ms: MemoryStorage.MemoryStore, ws: WebStorage.WebStore) {
    forall t :: AgreeOn(ms, ws, t)
  }

  /** Both calls succeed or both fail, with the same error, and the stores
      they hand back agree. */
  ghost predicate Match(a: MutResult<MemoryStorage.MemoryStore, ()>, b: MutResult<WebStorage.WebStore, ()>) {
    && (a.Done? <==> b.Done?)
    && (a.Failed? && b.Failed? ==> a.error == b.error)
    && Agree(a.store, b.store)
  }

  /** Two fresh backends agree, whatever the namespace. */
  lemma NewAgree(namespace: string)
    ensures Agree(MemoryStorage.New(), WebStorage.WebStore(namespace, map[]))
  {
  }

  /** Agreeing stores answer every read alike. */
  lemma ReadsAgree(ms: MemoryStorage.MemoryStore, ws: WebStorage.WebStore, t: string)
    requires Agree(ms, ws)
    ensures WebStorage.FetchSchema(ws, t) == Ok(MemoryStorage.FetchSchema(ms, t))
    ensures WebStorage.ScanData(ws, t) == Ok(MemoryStorage.ScanData(ms, t))
  {
    assert AgreeOn(ms, ws, t);
  }

  /** Under agreement the keyed schema key of `t` is absent exactly when the
      in-memory table is, and holds that very schema otherwise. */
  lemma SchemaKeyAgrees(ms: MemoryStorage.MemoryStore, ws: WebStorage.WebStore, t: string)
    requires AgreeOn(ms, ws, t)
    ensures var sk := WebStorage.SchemaPrefix(ws.namespace, t);
            && (sk in ws.kv <==> t in ms.schemaMap)
            && (t in ms.schemaMap ==> ws.kv[sk] == WebStorage.SchemaRecord(ms.schemaMap[t]))
  {
  }

  /** Keys of other tables are apart from every key of `t`. */
  lemma ApartFrom(ns: string, t: string)
    ensures forall x, r: WebStorage.Role :: x != t ==>
              && WebStorage.ItemKey(ns, r, x) != WebStorage.IdPrefix(ns, t)
              && WebStorage.ItemKey(ns, r, x) != WebStorage.SchemaPrefix(ns, t)
              && WebStorage.ItemKey(ns, r, x) != WebStorage.DataPrefix(ns, t)
  {
    forall x, r: WebStorage.Role | x != t
      ensures && WebStorage.ItemKey(ns, r, x) != WebStorage.IdPrefix(ns, t)
              && WebStorage.ItemKey(ns, r, x) != WebStorage.SchemaPrefix(ns, t)
              && WebStorage.ItemKey(ns, r, x) != WebStorage.DataPrefix(ns, t)
    {
      WebStorage.KeyInjective(ns, r, x, WebStorage.IdRole, t);
      WebStorage.KeyInjective(ns, r, x, WebStorage.SchemaRole, t);
      WebStorage.KeyInjective(ns, r, x, WebStorage.DataRole, t);
    }
  }

  /** The framing step every operation shares: when the memory side changes
      only `tables`, the keyed side writes only keys of those tables, and
      the two agree on `tables` afterwards, they agree everywhere. */
  lemma Frame(ms: MemoryStorage.MemoryStore, ws: WebStorage.WebStore,
              ms2: MemoryStorage.MemoryStore, ws2: WebStorage.WebStore,
              tables: set<string>, keys: set<string>)
    requires Agree(ms, ws)
    requires MemoryStorage.UnchangedExcept(ms, ms2, tables)
    requires WebStorage.WritesOnly(ws, ws2, keys)
    requires forall x, r: WebStorage.Role :: x !in tables ==> WebStorage.ItemKey(ws.namespace, r, x) !in keys
    requires forall t :: t in tables ==> AgreeOn(ms2, ws2, t)
    ensures Agree(ms2, ws2)
  {
    var ns := ws.namespace;
    forall x
      ensures AgreeOn(ms2, ws2, x)
    {
      if x !in tables {
        assert AgreeOn(ms, ws, x);
        assert WebStorage.ItemKey(ns, WebStorage.SchemaRole, x) !in keys;
        assert WebStorage.ItemKey(ns, WebStorage.DataRole, x) !in keys;
        var sk, dk := WebStorage.SchemaPrefix(ns, x), WebStorage.DataPrefix(ns, x);
        assert WebStorage.Get(ws2.kv, sk) == WebStorage.Get(ws.kv, sk);
        assert WebStorage.Get(ws2.kv, dk) == WebStorage.Get(ws.kv, dk);
      }
    }
  }

  lemma {:induction false} InsertSchemaAgrees(ms: MemoryStorage.MemoryStore, ws: WebStorage.WebStore, schema: Schema)
    requires Agree(ms, ws)
    ensures Match(MemoryStorage.InsertSchema(ms, schema), WebStorage.InsertSchema(ws, schema))
  {
    var ns, t := ws.namespace, schema.tableName;
    var ms2, ws2 := MemoryStorage.InsertSchema(ms, schema).store, WebStorage.InsertSchema(ws, schema).store;
    ApartFrom(ns, t);
    WebStorage.KeyInjective(ns, WebStorage.DataRole, t, WebStorage.SchemaRole, t);
    assert AgreeOn(ms, ws, t);
    assert WebStorage.Get(ws2.kv, WebStorage.DataPrefix(ns, t)) == WebStorage.Get(ws.kv, WebStorage.DataPrefix(ns, t));
    Frame(ms, ws, ms2, ws2, {t}, {WebStorage.SchemaPrefix(ns, t)});
  }

  lemma {:induction false} DeleteSchemaAgrees(ms: MemoryStorage.MemoryStore, ws: WebStorage.WebStore, t: string)
    requires Agree(ms, ws)
    ensures Match(MemoryStorage.DeleteSchema(ms, t), WebStorage.DeleteSchema(ws, t))
  {
    var ns := ws.namespace;
    var ms2, ws2 := MemoryStorage.DeleteSchema(ms, t).store, WebStorage.DeleteSchema(ws, t).store;
    ApartFrom(ns, t);
    assert WebStorage.DataPrefix(ns, t) !in ws2.kv;
    Frame(ms, ws, ms2, ws2, {t}, {WebStorage.SchemaPrefix(ns, t), WebStorage.DataPrefix(ns, t)});
  }

  lemma {:induction false} InsertDataAgrees(ms: MemoryStorage.MemoryStore, ws: WebStorage.WebStore, key: Key, row: Row)
    requires Agree(ms, ws)
    ensures Match(MemoryStorage.InsertData(ms, key, row), WebStorage.InsertData(ws, key, row))
  {
    var ns, t := ws.namespace, key.tableName;
    var ms2, ws2 := MemoryStorage.InsertData(ms, key, row).store, WebStorage.InsertData(ws, key, row).store;
    ApartFrom(ns, t);
    WebStorage.KeyInjective(ns, WebStorage.SchemaRole, t, WebStorage.DataRole, t);
    assert AgreeOn(ms, ws, t);
    var sk := WebStorage.SchemaPrefix(ns, t);
    assert WebStorage.Get(ws2.kv, sk) == WebStorage.Get(ws.kv, sk);
    Frame(ms, ws, ms2, ws2, {t}, {WebStorage.DataPrefix(ns, t)});
  }

  lemma {:induction false} DeleteDataAgrees(ms: MemoryStorage.MemoryStore, ws: WebStorage.WebStore, key: Key)
    requires Agree(ms, ws)
    ensures Match(MemoryStorage.DeleteData(ms, key), WebStorage.DeleteData(ws, key))
  {
    var ns, t := ws.namespace, key.tableName;
    var ms2, ws2 := MemoryStorage.DeleteData(ms, key).store, WebStorage.DeleteData(ws, key).store;
    ApartFrom(ns, t);
    WebStorage.KeyInjective(ns, WebStorage.SchemaRole, t, WebStorage.DataRole, t);
    assert AgreeOn(ms, ws, t);
    var sk := WebStorage.SchemaPrefix(ns, t);
    assert WebStorage.Get(ws2.kv, sk) == WebStorage.Get(ws.kv, sk);
    Frame(ms, ws, ms2, ws2, {t}, {WebStorage.DataPrefix(ns, t)});
  }

  lemma {:induction false} RenameColumnAgrees(ms: MemoryStorage.MemoryStore, ws: WebStorage.WebStore, t: string, a: string, b: string)
    requires Agree(ms, ws)
    ensures Match(MemoryStorage.RenameColumn(ms, t, a, b), WebStorage.RenameColumn(ws, t, a, b))
  {
    var ns := ws.namespace;
    var ms2, ws2 := MemoryStorage.RenameColumn(ms, t, a, b).store, WebStorage.RenameColumn(ws, t, a, b).store;
    ApartFrom(ns, t);
    WebStorage.KeyInjective(ns, WebStorage.SchemaRole, t, WebStorage.DataRole, t);
    assert AgreeOn(ms, ws, t);
    SchemaKeyAgrees(ms, ws, t);
    var dk := WebStorage.DataPrefix(ns, t);
    assert WebStorage.Get(ws2.kv, dk) == WebStorage.Get(ws.kv, dk);
    Frame(ms, ws, ms2, ws2, {t}, {WebStorage.SchemaPrefix(ns, t)});
  }

  lemma {:induction false} AddColumnAgrees(ms: MemoryStorage.MemoryStore, ws: WebStorage.WebStore, t: string, c: ColumnDef, ev: Evaluator)
    requires Agree(ms, ws)
    ensures Match(MemoryStorage.AddColumn(ms, t, c, ev), WebStorage.AddColumn(ws, t, c, ev))
  {
    var ns := ws.namespace;
    var ms2, ws2 := MemoryStorage.AddColumn(ms, t, c, ev).store, WebStorage.AddColumn(ws, t, c, ev).store;
    ApartFrom(ns, t);
    WebStorage.KeyInjective(ns, WebStorage.SchemaRole, t, WebStorage.DataRole, t);
    assert AgreeOn(ms, ws, t);
    SchemaKeyAgrees(ms, ws, t);
    Frame(ms, ws, ms2, ws2, {t}, {WebStorage.SchemaPrefix(ns, t), WebStorage.DataPrefix(ns, t)});
  }

  /** Agreeing stores make `drop_column` panic-free on both backends or on
      neither: the same column is found at the same position, over the same
      rows. */
  lemma {:induction false} DropSafeAgrees(ms: MemoryStorage.MemoryStore, ws: WebStorage.WebStore, t: string, name: string)
    requires Agree(ms, ws)
    ensures MemoryStorage.DropSafe(ms, t, name) <==> WebStorage.DropSafe(ws, t, name)
  {
    assert AgreeOn(ms, ws, t);
    SchemaKeyAgrees(ms, ws, t);
  }

  /** DROP COLUMN needs the schema under `t` to carry the name `t`: memory
      rebuilds the schema with the slot's name, the keyed store keeps the
      stored one. Every store reached by the operations is so
      (`MemoryProperties.StepKeepsSelfNamed`). */
  lemma {:induction false} DropColumnAgrees(ms: MemoryStorage.MemoryStore, ws: WebStorage.WebStore, t: string, name: string, ifExists: bool)
    requires Agree(ms, ws) && MemoryProperties.SelfNamed(ms)
    requires MemoryStorage.DropSafe(ms, t, name)
    ensures WebStorage.DropSafe(ws, t, name)
    ensures Match(MemoryStorage.DropColumn(ms, t, name, ifExists), WebStorage.DropColumn(ws, t, name, ifExists))
  {
    var ns := ws.namespace;
    ApartFrom(ns, t);
    WebStorage.KeyInjective(ns, WebStorage.SchemaRole, t, WebStorage.DataRole, t);
    assert AgreeOn(ms, ws, t);
    SchemaKeyAgrees(ms, ws, t);
    var ms2, ws2 := MemoryStorage.DropColumn(ms, t, name, ifExists).store, WebStorage.DropColumn(ws, t, name, ifExists).store;
    Frame(ms, ws, ms2, ws2, {t}, {WebStorage.SchemaPrefix(ns, t), WebStorage.DataPrefix(ns, t)});
  }

  /** Issuing an id touches no table on either side. */
  lemma {:induction false} GenerateIdAgrees(ms: MemoryStorage.MemoryStore, ws: WebStorage.WebStore, t: string)
    requires Agree(ms, ws)
    ensures Agree(MemoryStorage.GenerateId(ms, t).store, WebStorage.GenerateId(ws, t).store)
  {
    var ns := ws.namespace;
    ApartFrom(ns, t);
    var ms2, ws2 := MemoryStorage.GenerateId(ms, t).store, WebStorage.GenerateId(ws, t).store;
    forall x | x == t
      ensures AgreeOn(ms2, ws2, x)
    {
      WebStorage.KeyInjective(ns, WebStorage.SchemaRole, t, WebStorage.IdRole, t);
      WebStorage.KeyInjective(ns, WebStorage.DataRole, t, WebStorage.IdRole, t);
      assert AgreeOn(ms, ws, t);
      var sk, dk := WebStorage.SchemaPrefix(ns, t), WebStorage.DataPrefix(ns, t);
      assert WebStorage.Get(ws2.kv, sk) == WebStorage.Get(ws.kv, sk);
      assert WebStorage.Get(ws2.kv, dk) == WebStorage.Get(ws.kv, dk);
    }
    Frame(ms, ws, ms2, ws2, {t}, {WebStorage.IdPrefix(ns, t)});
  }

  /** As written, RENAME TABLE breaks the agreement: memory moves the rows,
      the keyed store copies them and leaves the old ones readable under
      the old name. */
  lemma {:induction false} RenameDiverges(ms: MemoryStorage.MemoryStore, ws: WebStorage.WebStore, t: string, u: string)
    requires Agree(ms, ws)
    requires t in ms.schemaMap && t != u && MemoryStorage.Rows(ms, t) != []
    ensures MemoryStorage.RenameSchema(ms, t, u).Done? && WebStorage.RenameSchema(ws, t, u).Done?
    ensures MemoryStorage.Rows(MemoryStorage.RenameSchema(ms, t, u).store, t) == []
    ensures WebStorage.ScanData(WebStorage.RenameSchema(ws, t, u).store, t) != Ok([])
    ensures !Agree(MemoryStorage.RenameSchema(ms, t, u).store, WebStorage.RenameSchema(ws, t, u).store)
  {
    var ns := ws.namespace;
    assert AgreeOn(ms, ws, t);
    SchemaKeyAgrees(ms, ws, t);
    var ms2, ws2 := MemoryStorage.RenameSchema(ms, t, u).store, WebStorage.RenameSchema(ws, t, u).store;
    var dk := WebStorage.DataPrefix(ns, t);
    assert WebStorage.LoadRows(ws2.kv, dk) == WebStorage.LoadRows(ws.kv, dk);
    assert !AgreeOn(ms2, ws2, t);
  }

  /** As written, the other way round: renaming a table that has no row
      blob onto a name that still holds rows. Memory leaves the new name
      empty; the keyed store copies nothing, so the new name keeps the rows
      it held. */
  lemma {:induction false} RenameOntoRowsDiverges(ms: MemoryStorage.MemoryStore, ws: WebStorage.WebStore, t: string, u: string)
    requires Agree(ms, ws)
    requires t in ms.schemaMap && t != u
    requires WebStorage.DataPrefix(ws.namespace, t) !in ws.kv && MemoryStorage.Rows(ms, u) != []
    ensures MemoryStorage.RenameSchema(ms, t, u).Done? && WebStorage.RenameSchema(ws, t, u).Done?
    ensures MemoryStorage.Rows(MemoryStorage.RenameSchema(ms, t, u).store, u) == []
    ensures WebStorage.ScanData(WebStorage.RenameSchema(ws, t, u).store, u) != Ok([])
    ensures !Agree(MemoryStorage.RenameSchema(ms, t, u).store, WebStorage.RenameSchema(ws, t, u).store)
  {
    var ns := ws.namespace;
    assert AgreeOn(ms, ws, t);
    assert AgreeOn(ms, ws, u);
    SchemaKeyAgrees(ms, ws, t);
    var ms2, ws2 := MemoryStorage.RenameSchema(ms, t, u).store, WebStorage.RenameSchema(ws, t, u).store;
    var ndk := WebStorage.DataPrefix(ns, u);
    assert WebStorage.LoadRows(ws2.kv, ndk) == WebStorage.LoadRows(ws.kv, ndk);
    assert !AgreeOn(ms2, ws2, u);
  }

  /** With the corrections, RENAME TABLE keeps the agreement, to another
      name and to its own alike. */
  lemma {:induction false} CorrectedRenameAgrees(ms: MemoryStorage.MemoryStore, ws: WebStorage.WebStore, t: string, u: string)
    requires Agree(ms, ws)
    ensures Match(Findings.MemoryRenameSchema(ms, t, u), Findings.WebRenameSchema(ws, t, u))
  {
    var ns := ws.namespace;
    assert AgreeOn(ms, ws, t);
    assert AgreeOn(ms, ws, u);
    SchemaKeyAgrees(ms, ws, t);
    ApartFrom(ns, t);
    ApartFrom(ns, u);
    var ms2, ws2 := Findings.MemoryRenameSchema(ms, t, u).store, Findings.WebRenameSchema(ws, t, u).store;
    if t in ms.schemaMap {
      if t == u {
        WebStorage.KeyInjective(ns, WebStorage.SchemaRole, t, WebStorage.DataRole, t);
        assert AgreeOn(ms2, ws2, t);
        Frame(ms, ws, ms2, ws2, {t}, {WebStorage.SchemaPrefix(ns, t)});
      } else {
        var dk, ndk := WebStorage.DataPrefix(ns, t), WebStorage.DataPrefix(ns, u);
        assert AgreeOn(ms2, ws2, t);
        assert AgreeOn(ms2, ws2, u);
        Frame(ms, ws, ms2, ws2, {t, u},
              {WebStorage.SchemaPrefix(ns, t), WebStorage.SchemaPrefix(ns, u), dk, ndk, WebStorage.IdPrefix(ns, u)});
      }
    }
  }
}

=== FILE: columns.dfy ===
/** A schema's column list and the column-level steps of ALTER TABLE shared by
    both backends: finding a column by name, renaming one in place, and
    working out the value that ADD COLUMN writes into existing rows. */
module Columns {
  import opened Entities
  import opened Seqs

  /** Position of the first column called `name` (the linear scan of
      `rename_column` and `drop_column`). */
  function ColumnPosition(columns: seq<ColumnDef>, name: string): Option<nat> {
    FirstIndex(columns, (c: ColumnDef) => c.name == name)
  }

  /** `add_column`'s duplicate test: some column already has this name. */
  predicate HasColumn(columns: seq<ColumnDef>, name: string) {
    exists k :: 0 <= k < |columns| && columns[k].name == name
  }

  lemma HasColumnIffPosition(columns: seq<ColumnDef>, name: string)
    ensures HasColumn(columns, name) <==> ColumnPosition(columns, name).Some?
  {
    if HasColumn(columns, name) {
      var k :| 0 <= k < |columns| && columns[k].name == name;
      var p := (c: ColumnDef) => c.name == name;
      assert p(columns[k]);
    }
  }

  /** Column names are pairwise different. */
  ghost predicate UniqueNames(columns: seq<ColumnDef>) {
    forall j, k :: 0 <= j < k < |columns| ==> columns[j].name != columns[k].name
  }

  /** The column list with the name of column `i` replaced; its type, its
      options, its position and every other column stay as they were. */
  function RenameColumnAt(columns: seq<ColumnDef>, i: nat, newName: string): (r: seq<ColumnDef>)
    requires i < |columns|
    ensures |r| == |columns|
    ensures r[i].name == newName
    ensures r[i].dataType == columns[i].dataType && r[i].options == columns[i].options
    ensures forall k :: 0 <= k < |r| && k != i ==> r[k] == columns[k]
  {
    columns[i := columns[i].(name := newName)]
  }

  /** A column is nullable exactly when it carries the `NULL` option; a
      column with no option at all is not nullable. */
  predicate IsNullable(c: ColumnDef) {
    AllowNull in c.options
  }

  /** The expression of the first `DEFAULT` option, or `None`. */
  function FirstDefault(options: seq<ColumnOption>): (r: Option<Expr>)
    ensures r.None? <==> forall k :: 0 <= k < |options| ==> !options[k].Default?
    ensures r.Some? ==>
              exists k :: 0 <= k < |options| && options[k] == Default(r.value)
                          && forall j :: 0 <= j < k ==> !options[j].Default?
  {
    if |options| == 0 then None
    else if options[0].Default? then Some(options[0].expr)
    else
      var rest := FirstDefault(options[1..]);
      assert rest.Some? ==> exists k :: 0 <= k < |options[1..]| && options[1..][k] == Default(rest.value)
                                        && forall j :: 0 <= j < k ==> !options[1..][j].Default?;
      assert rest.Some? ==> exists k :: 1 <= k < |options| && options[k] == Default(rest.value)
                                        && forall j :: 0 <= j < k ==> !options[j].Default?;
      rest
  }

  /** The value `add_column` writes into every existing row: the first
      `DEFAULT` evaluated against the column's type and nullability; failing
      that, the type's null when the column is nullable; failing that, the
      error `DefaultValueRequired`. An evaluator failure is passed on. */
  function FillValue(c: ColumnDef, ev: Evaluator): (r: Result<Value>)
    ensures (forall k :: 0 <= k < |c.options| ==> !c.options[k].Default?) && !IsNullable(c)
            ==> r == Err(DefaultValueRequired(c))
    ensures (forall k :: 0 <= k < |c.options| ==> !c.options[k].Default?) && IsNullable(c)
            ==> r == ev.fromNull(c.dataType, true)
    ensures forall k :: 0 <= k < |c.options| && c.options[k].Default?
                        && (forall j :: 0 <= j < k ==> !c.options[j].Default?)
                        ==> r == ev.fromExpr(c.dataType, IsNullable(c), c.options[k].expr)
  {
    var nullable := IsNullable(c);
    match FirstDefault(c.options)
    case Some(e) => ev.fromExpr(c.dataType, nullable, e)
    case None =>
      if nullable then ev.fromNull(c.dataType, nullable)
      else Err(DefaultValueRequired(c))
  }

  /** Appending a column whose name is new keeps the names unique and puts
      that name, uniquely, in last place. */
  lemma AppendFreshColumn(columns: seq<ColumnDef>, c: ColumnDef)
    requires !HasColumn(columns, c.name)
    ensures UniqueNames(columns) ==> UniqueNames(columns + [c])
    ensures ColumnPosition(columns + [c], c.name) == Some(|columns|)
  {
    var p := (d: ColumnDef) => d.name == c.name;
    assert forall j :: 0 <= j < |columns| ==> !p((columns + [c])[j]);
    assert p((columns + [c])[|columns|]);
  }
}

=== FILE: entities.dfy ===
/** The shared vocabulary of the storage layer: values, column definitions,
    schemas, rows, row keys, the error kinds and the ownership-return result
    that every mutating operation hands back. */
module Entities {

  datatype Option<+T> = None | Some(value: T)

  /** A stored cell. Floating-point numbers are carried as an opaque bit
      pattern: the storage layer never computes with them. */
  datatype Value = Bool(b: bool) | I64(n: int) | F64(bits: int) | Str(s: string) | Null

  datatype DataType = Boolean | Int | Float | Text

  /** A default expression, kept as its SQL text; only the external evaluator
      gives it meaning. */
  datatype Expr = Expr(sql: string)

  /** `ColumnOption::Null` is `AllowNull` here, to keep it apart from the
      value `Null`. */
  datatype ColumnOption = AllowNull | NotNull | Default(expr: Expr) | Unique(isPrimary: bool)

  datatype ColumnDef = ColumnDef(name: string, dataType: DataType, options: seq<ColumnOption>)

  datatype Schema = Schema(tableName: string, columns: seq<ColumnDef>)

  /** A row is positional: its i-th value belongs to the i-th column. */
  type Row = seq<Value>

  /** One stored row together with its id, as a table's row list holds it. */
  type Entry = (nat, Row)

  /** Identifies one row of one table. */
  datatype Key = Key(tableName: string, id: nat)

  datatype Error =
    | TableNotFound(table: string)
    | RenamingColumnNotFound
    | AddingColumnAlreadyExists(column: string)
    | DroppingColumnNotFound(column: string)
    | DefaultValueRequired(columnDef: ColumnDef)
      /** A blob under the named key did not decode. */
    | Storage(key: string)

  datatype Result<+T> = Ok(value: T) | Err(error: Error)

  /** Ownership return: success gives the new store and a value, failure
      gives a store (the original one, wherever the backend keeps its promise)
      and the error. */
  datatype MutResult<S, T> = Done(store: S, value: T) | Failed(store: S, error: Error)

  /** The external evaluator of default values: `fromExpr` stands for
      `Value::from_expr(data_type, nullable, expr)` and `fromNull` for
      `Value::from_data_type(data_type, nullable, Null)`. */
  datatype Evaluator = Evaluator(
    fromExpr: (DataType, bool, Expr) -> Result<Value>,
    fromNull: (DataType, bool) -> Result<Value>)
}

=== FILE: findings.dfy ===
/** Places where the backends do not keep their own contract, each shown on
    the operations as they are written, and a corrected operation for each
    with the intended property proved. The as-written operations stay the
    model of the backends; the corrected ones are what the agreement between
    the backends is stated over for RENAME TABLE. */
module Findings {
  import opened Entities
  import opened Seqs
  import opened Items
  import opened Columns
  import MemoryStorage
  import WebStorage
  import WebProperties

  // ----- Renaming a table to its own name -----

  /** As written, in memory: `ALTER TABLE t RENAME TO t` succeeds and the
      table's schema is gone. */
  lemma MemoryRenameToSameNameDropsSchema(s: MemoryStorage.MemoryStore, t: string)
    requires MemoryStorage.FetchSchema(s, t).Some?
    ensures MemoryStorage.RenameSchema(s, t, t).Done?
    ensures MemoryStorage.FetchSchema(MemoryStorage.RenameSchema(s, t, t).store, t) == None
  {
  }

  /** As written, keyed: the same. */
  lemma WebRenameToSameNameDropsSchema(ws: WebStorage.WebStore, t: string, schema: Schema)
    requires WebStorage.FetchSchema(ws, t) == Ok(Some(schema))
    ensures WebStorage.RenameSchema(ws, t, t).Done?
    ensures WebStorage.FetchSchema(WebStorage.RenameSchema(ws, t, t).store, t) == Ok(None)
  {
  }

  /** Corrected in-memory RENAME TABLE: renaming to the same name keeps the
      table (as the schema's own `table_name` already says); otherwise as
      written. */
  function MemoryRenameSchema(s: MemoryStorage.MemoryStore, table: string, newTable: string): (r: MutResult<MemoryStorage.MemoryStore, ()>)
    ensures table !in s.schemaMap ==> r == Failed(s, TableNotFound(table))
    ensures table in s.schemaMap ==> r.Done? && r.store.id == s.id
    ensures table in s.schemaMap ==>
              && MemoryStorage.FetchSchema(r.store, newTable) == Some(s.schemaMap[table].(tableName := newTable))
              && MemoryStorage.Rows(r.store, newTable) == MemoryStorage.Rows(s, table)
    ensures table in s.schemaMap && newTable != table ==>
              MemoryStorage.FetchSchema(r.store, table) == None && MemoryStorage.Rows(r.store, table) == []
    ensures MemoryStorage.UnchangedExcept(s, r.store, {table, newTable})
  {
    if table in s.schemaMap && newTable == table then
      var schema := s.schemaMap[table].(tableName := table);
      Done(s.(schemaMap := s.schemaMap[table := schema]), ())
    else MemoryStorage.RenameSchema(s, table, newTable)
  }

  /** With the correction, renaming a table to its own name changes nothing
      a reader can see, for any table whose schema carries its own name. */
  lemma CorrectedRenameToSameNameKeepsTable(s: MemoryStorage.MemoryStore, t: string)
    requires t in s.schemaMap && s.schemaMap[t].tableName == t
    ensures MemoryRenameSchema(s, t, t).Done?
    ensures MemoryStorage.UnchangedExcept(s, MemoryRenameSchema(s, t, t).store, {})
  {
    assert MemoryStorage.FetchSchema(MemoryRenameSchema(s, t, t).store, t) == MemoryStorage.FetchSchema(s, t);
  }

  // ----- Keyed rename: rows left behind, counter not carried -----

  /** As written, keyed: after renaming `t` to `u`, a new table created
      under the old name `t` already holds `t`'s old rows, since the old data
      key is never removed. */
  lemma RenamedRowsResurface(ws: WebStorage.WebStore, t: string, u: string, items: seq<Entry>, created: Schema)
    requires t != u && created.tableName == t
    requires WebStorage.FetchSchema(ws, t).Ok? && WebStorage.FetchSchema(ws, t).value.Some?
    requires WebStorage.Get(ws.kv, WebStorage.DataPrefix(ws.namespace, t)) == Some(WebStorage.RowsRecord(items))
    ensures var renamed := WebStorage.RenameSchema(ws, t, u);
            && renamed.Done?
            && WebStorage.ScanData(WebStorage.InsertSchema(renamed.store, created).store, t) == Ok(Scan(t, items))
  {
    var ns := ws.namespace;
    var renamed := WebStorage.RenameSchema(ws, t, u).store;
    var after := WebStorage.InsertSchema(renamed, created).store;
    WebStorage.KeyInjective(ns, WebStorage.SchemaRole, t, WebStorage.DataRole, t);
    assert WebStorage.Get(after.kv, WebStorage.DataPrefix(ns, t)) == WebStorage.Get(renamed.kv, WebStorage.DataPrefix(ns, t));
  }

  /** As written, keyed: a table without a row blob renamed onto a name
      whose data key still holds rows (left by an earlier rename, or by an
      insert under a name with no schema) takes those rows over. */
  lemma StaleRowsUnderNewName(ws: WebStorage.WebStore, t: string, u: string, items: seq<Entry>)
    requires t != u
    requires WebStorage.FetchSchema(ws, t).Ok? && WebStorage.FetchSchema(ws, t).value.Some?
    requires WebStorage.DataPrefix(ws.namespace, t) !in ws.kv
    requires WebStorage.Get(ws.kv, WebStorage.DataPrefix(ws.namespace, u)) == Some(WebStorage.RowsRecord(items))
    ensures var renamed := WebStorage.RenameSchema(ws, t, u);
            && renamed.Done?
            && WebStorage.ScanData(renamed.store, u) == Ok(Scan(u, items))
  {
  }

  /** As written, keyed: the id record stays with the old name. A table
      renamed to a name that never issued an id restarts at 1, and the
      insert that follows overwrites the row that already has id 1. */
  lemma RenameReissuesIds(ws: WebStorage.WebStore, t: string, u: string, items: seq<Entry>, row: Row)
    requires t != u
    requires WebStorage.FetchSchema(ws, t).Ok? && WebStorage.FetchSchema(ws, t).value.Some?
    requires WebStorage.Get(ws.kv, WebStorage.DataPrefix(ws.namespace, t)) == Some(WebStorage.RowsRecord(items))
    requires WebStorage.IdPrefix(ws.namespace, u) !in ws.kv
    requires |items| > 0 && items[0].0 == 1
    ensures var renamed := WebStorage.RenameSchema(ws, t, u).store;
            var g := WebStorage.GenerateId(renamed, u);
            && g.Done? && g.value == Key(u, 1)
            && 1 in Ids(WebStorage.LoadRows(renamed.kv, WebStorage.DataPrefix(ws.namespace, u)).value)
            && var after := WebStorage.InsertData(g.store, g.value, row).store;
               && WebStorage.LoadRows(after.kv, WebStorage.DataPrefix(ws.namespace, u)) == Ok(Upsert(items, 1, row))
               && |Upsert(items, 1, row)| == |items|
               && Lookup(Upsert(items, 1, row), 1) == Some(row)
  {
    var ns := ws.namespace;
    var renamed := WebStorage.RenameSchema(ws, t, u).store;
    WebStorage.KeyInjective(ns, WebStorage.IdRole, u, WebStorage.SchemaRole, t);
    WebStorage.KeyInjective(ns, WebStorage.IdRole, u, WebStorage.SchemaRole, u);
    WebStorage.KeyInjective(ns, WebStorage.IdRole, u, WebStorage.DataRole, u);
    WebStorage.KeyInjective(ns, WebStorage.IdRole, u, WebStorage.DataRole, t);
    assert WebStorage.IdPrefix(ns, u) !in renamed.kv;
    var g := WebStorage.GenerateId(renamed, u);
    assert WebStorage.LoadRows(renamed.kv, WebStorage.DataPrefix(ns, u)) == Ok(items);
    assert Ids(items)[0] == 1;
    assert WebStorage.Get(g.store.kv, WebStorage.DataPrefix(ns, u)) == WebStorage.Get(renamed.kv, WebStorage.DataPrefix(ns, u));
    assert |Ids(Upsert(items, 1, row))| == |Ids(items)|;
  }

  /** Corrected keyed RENAME TABLE: the same name keeps the table; otherwise
      the schema, the row list and the id record all move to the new name,
      and the old schema and data keys are removed (the old id record stays,
      as DROP TABLE leaves it). A new name with no rows to receive ends up
      with none. Errors come before any write, as written. */
  function WebRenameSchema(ws: WebStorage.WebStore, table: string, newTable: string): (r: MutResult<WebStorage.WebStore, ()>)
    ensures var sk := WebStorage.SchemaPrefix(ws.namespace, table);
            && (sk !in ws.kv ==> r == Failed(ws, TableNotFound(table)))
            && (sk in ws.kv && !ws.kv[sk].SchemaRecord? ==> r == Failed(ws, Storage(sk)))
            && (sk in ws.kv && ws.kv[sk].SchemaRecord? ==> r.Done?)
    ensures r.Failed? ==> r.store == ws
    ensures r.Done? ==>
              var before := ws.kv[WebStorage.SchemaPrefix(ws.namespace, table)].schema;
              var dk := WebStorage.DataPrefix(ws.namespace, table);
              var ndk := WebStorage.DataPrefix(ws.namespace, newTable);
              && WebStorage.FetchSchema(r.store, newTable) == Ok(Some(before.(tableName := newTable)))
              && WebStorage.Get(r.store.kv, ndk) == WebStorage.Get(ws.kv, dk)
              && (newTable != table ==>
                    && WebStorage.FetchSchema(r.store, table) == Ok(None)
                    && dk !in r.store.kv
                    && WebStorage.Get(r.store.kv, WebStorage.IdPrefix(ws.namespace, newTable))
                       == if WebStorage.IdPrefix(ws.namespace, table) in ws.kv
                          then WebStorage.Get(ws.kv, WebStorage.IdPrefix(ws.namespace, table))
                          else WebStorage.Get(ws.kv, WebStorage.IdPrefix(ws.namespace, newTable)))
    ensures WebStorage.WritesOnly(ws, r.store, {WebStorage.SchemaPrefix(ws.namespace, table), WebStorage.SchemaPrefix(ws.namespace, newTable),
                                                WebStorage.DataPrefix(ws.namespace, table), WebStorage.DataPrefix(ws.namespace, newTable),
                                                WebStorage.IdPrefix(ws.namespace, newTable)})
  {
    var ns := ws.namespace;
    var schemaPrefix := WebStorage.SchemaPrefix(ns, table);
    if schemaPrefix !in ws.kv then Failed(ws, TableNotFound(table))
    else
      match WebStorage.DecodeSchema(ws.kv[schemaPrefix], schemaPrefix)
      case Err(e) => Failed(ws, e)
      case Ok(schema) =>
        if newTable == table then
          Done(ws.(kv := ws.kv[schemaPrefix := WebStorage.SchemaRecord(schema.(tableName := table))]), ())
        else
          var newSchemaPrefix := WebStorage.SchemaPrefix(ns, newTable);
          var dataPrefix := WebStorage.DataPrefix(ns, table);
          var newDataPrefix := WebStorage.DataPrefix(ns, newTable);
          var idPrefix := WebStorage.IdPrefix(ns, table);
          var newIdPrefix := WebStorage.IdPrefix(ns, newTable);
          WebProperties.OtherTableKeys(ns, table, newTable);
          WebProperties.OtherTableKeys(ns, newTable, table);
          WebStorage.KeyInjective(ns, WebStorage.SchemaRole, table, WebStorage.DataRole, table);
          WebStorage.KeyInjective(ns, WebStorage.SchemaRole, newTable, WebStorage.DataRole, newTable);
          WebStorage.KeyInjective(ns, WebStorage.SchemaRole, newTable, WebStorage.IdRole, newTable);
          WebStorage.KeyInjective(ns, WebStorage.DataRole, newTable, WebStorage.IdRole, newTable);
          var kv1 := ws.kv[newSchemaPrefix := WebStorage.SchemaRecord(schema.(tableName := newTable))] - {schemaPrefix};
          var kv2 := if dataPrefix in ws.kv then kv1[newDataPrefix := ws.kv[dataPrefix]] - {dataPrefix}
                     else kv1 - {newDataPrefix};
          var kv3 := if idPrefix in ws.kv then kv2[newIdPrefix := ws.kv[idPrefix]] else kv2;
          Done(ws.(kv := kv3), ())
  }

  /** With the corrected rename, `IdsIssued` moves with the table: an id
      generated under the new name is not already among its rows. */
  lemma CorrectedRenameKeepsIdsIssued(ws: WebStorage.WebStore, t: string, u: string)
    requires t != u && WebProperties.IdsIssued(ws, t) && WebProperties.IdsIssued(ws, u)
    requires WebRenameSchema(ws, t, u).Done?
    ensures WebProperties.IdsIssued(WebRenameSchema(ws, t, u).store, u)
  {
    var ns := ws.namespace;
    var r := WebRenameSchema(ws, t, u).store;
    var dk, ndk := WebStorage.DataPrefix(ns, t), WebStorage.DataPrefix(ns, u);
    var ik, nik := WebStorage.IdPrefix(ns, t), WebStorage.IdPrefix(ns, u);
    var rows := WebStorage.LoadRows(r.kv, ndk);
    assert rows.Ok? <==> WebStorage.LoadRows(ws.kv, dk).Ok?;
    assert rows.Ok? ==> rows.value == WebStorage.LoadRows(ws.kv, dk).value;
    if ik in ws.kv {
      assert WebStorage.Counter(r, u).Ok? <==> WebStorage.Counter(ws, t).Ok?;
      assert WebStorage.Counter(r, u).Ok? ==> WebStorage.Counter(r, u).value == WebStorage.Counter(ws, t).value;
    } else {
      assert WebStorage.Counter(ws, t) == Ok(0);
      assert WebStorage.Counter(r, u) == WebStorage.Counter(ws, u);
    }
  }

  // ----- Keyed ADD COLUMN / DROP COLUMN: partial write -----

  /** As written, keyed: when the row blob does not decode, `add_column`
      fails after it has written the widened schema, so the store it hands
      back is not the original one. */
  lemma AddColumnPartialWrite(ws: WebStorage.WebStore, t: string, c: ColumnDef, ev: Evaluator, schema: Schema, junk: string)
    requires WebStorage.Get(ws.kv, WebStorage.SchemaPrefix(ws.namespace, t)) == Some(WebStorage.SchemaRecord(schema))
    requires !HasColumn(schema.columns, c.name) && FillValue(c, ev).Ok?
    requires WebStorage.Get(ws.kv, WebStorage.DataPrefix(ws.namespace, t)) == Some(WebStorage.Corrupt(junk))
    ensures var r := WebStorage.AddColumn(ws, t, c, ev);
            && r.Failed? && r.store != ws
            && WebStorage.FetchSchema(r.store, t) == Ok(Some(schema.(columns := schema.columns + [c])))
  {
    WebStorage.KeyInjective(ws.namespace, WebStorage.SchemaRole, t, WebStorage.DataRole, t);
    var r := WebStorage.AddColumn(ws, t, c, ev);
    assert |schema.(columns := schema.columns + [c]).columns| != |schema.columns|;
    assert WebStorage.FetchSchema(r.store, t) != WebStorage.FetchSchema(ws, t);
  }

  /** As written, keyed: the same for `drop_column`. */
  lemma DropColumnPartialWrite(ws: WebStorage.WebStore, t: string, name: string, schema: Schema, junk: string)
    requires WebStorage.Get(ws.kv, WebStorage.SchemaPrefix(ws.namespace, t)) == Some(WebStorage.SchemaRecord(schema))
    requires HasColumn(schema.columns, name)
    requires WebStorage.Get(ws.kv, WebStorage.DataPrefix(ws.namespace, t)) == Some(WebStorage.Corrupt(junk))
    ensures WebStorage.DropSafe(ws, t, name)
    ensures var r := WebStorage.DropColumn(ws, t, name, false);
            && r.Failed? && r.store != ws
            && |WebStorage.FetchSchema(r.store, t).value.value.columns| == |schema.columns| - 1
  {
    WebStorage.KeyInjective(ws.namespace, WebStorage.SchemaRole, t, WebStorage.DataRole, t);
    HasColumnIffPosition(schema.columns, name);
    var r := WebStorage.DropColumn(ws, t, name, false);
    assert WebStorage.FetchSchema(r.store, t) != WebStorage.FetchSchema(ws, t);
  }

  /** Corrected keyed ADD COLUMN: every check, the row list's decoding
      included, comes before the first write, so every failure hands back the
      original store. The errors and the writes are those of the as-written
      operation. */
  function WebAddColumn(ws: WebStorage.WebStore, table: string, c: ColumnDef, ev: Evaluator): (r: MutResult<WebStorage.WebStore, ()>)
    ensures r.Failed? ==> r.store == ws
    ensures r.Done? <==> WebStorage.AddColumn(ws, table, c, ev).Done?
    ensures r.Done? ==> r == WebStorage.AddColumn(ws, table, c, ev)
    ensures r.Failed? ==> r.error == WebStorage.AddColumn(ws, table, c, ev).error
  {
    var schemaPrefix := WebStorage.SchemaPrefix(ws.namespace, table);
    if schemaPrefix !in ws.kv then Failed(ws, TableNotFound(table))
    else
      match WebStorage.DecodeSchema(ws.kv[schemaPrefix], schemaPrefix)
      case Err(e) => Failed(ws, e)
      case Ok(schema) =>
        if HasColumn(schema.columns, c.name) then Failed(ws, AddingColumnAlreadyExists(c.name))
        else
          match FillValue(c, ev)
          case Err(e) => Failed(ws, e)
          case Ok(v) =>
            var dataPrefix := WebStorage.DataPrefix(ws.namespace, table);
            WebStorage.KeyInjective(ws.namespace, WebStorage.SchemaRole, table, WebStorage.DataRole, table);
            match WebStorage.LoadRows(ws.kv, dataPrefix)
            case Err(e) => Failed(ws, e)
            case Ok(items) =>
              var kv := ws.kv[schemaPrefix := WebStorage.SchemaRecord(schema.(columns := schema.columns + [c]))];
              Done(ws.(kv := kv[dataPrefix := WebStorage.RowsRecord(AppendValue(items, v))]), ())
  }

  /** Corrected keyed DROP COLUMN, likewise. */
  function WebDropColumn(ws: WebStorage.WebStore, table: string, name: string, ifExists: bool): (r: MutResult<WebStorage.WebStore, ()>)
    requires WebStorage.DropSafe(ws, table, name)
    ensures r.Failed? ==> r.store == ws
    ensures r.Done? <==> WebStorage.DropColumn(ws, table, name, ifExists).Done?
    ensures r.Done? ==> r == WebStorage.DropColumn(ws, table, name, ifExists)
    ensures r.Failed? ==> r.error == WebStorage.DropColumn(ws, table, name, ifExists).error
  {
    var schemaPrefix := WebStorage.SchemaPrefix(ws.namespace, table);
    if schemaPrefix !in ws.kv then Failed(ws, TableNotFound(table))
    else
      match WebStorage.DecodeSchema(ws.kv[schemaPrefix], schemaPrefix)
      case Err(e) => Failed(ws, e)
      case Ok(schema) =>
        HasColumnIffPosition(schema.columns, name);
        match ColumnPosition(schema.columns, name)
        case None =>
          if ifExists then Done(ws, ()) else Failed(ws, DroppingColumnNotFound(name))
        case Some(i) =>
          var dataPrefix := WebStorage.DataPrefix(ws.namespace, table);
          WebStorage.KeyInjective(ws.namespace, WebStorage.SchemaRole, table, WebStorage.DataRole, table);
          match WebStorage.LoadRows(ws.kv, dataPrefix)
          case Err(e) => Failed(ws, e)
          case Ok(items) =>
            var kv := ws.kv[schemaPrefix := WebStorage.SchemaRecord(schema.(columns := RemoveAt(schema.columns, i)))];
            Done(ws.(kv := kv[dataPrefix := WebStorage.RowsRecord(DropValue(items, i))]), ())
  }
}

=== FILE: items.dfy ===
/** A table's row list: an ordered sequence of `(id, row)` entries. Both
    backends mutate it with the same three algorithms (upsert in place or
    append, remove the first match, and the column-wise rewrites of ALTER
    TABLE), so they are defined, and proved, once here. */
module Items {
  import opened Entities
  import opened Seqs

  /** The ids of a row list, in list order. */
  function Ids(items: seq<Entry>): seq<nat> {
    seq(|items|, k requires 0 <= k < |items| => items[k].0)
  }

  /** Reference reading of a row list: the row of the first entry with `id`. */
  function Lookup(items: seq<Entry>, id: nat): Option<Row> {
    if |items| == 0 then None
    else if items[0].0 == id then Some(items[0].1)
    else Lookup(items[1..], id)
  }

  /** The linear scan both backends use to find an id. */
  function IdPosition(items: seq<Entry>, id: nat): Option<nat> {
    FirstIndex(items, (e: Entry) => e.0 == id)
  }

  /** What `scan_data` yields for a row list: each row tagged with its key in
      table `table`, in list order. */
  function Scan(table: string, items: seq<Entry>): seq<(Key, Row)> {
    seq(|items|, k requires 0 <= k < |items| => (Key(table, items[k].0), items[k].1))
  }

  /** Every row of the list has exactly `n` values. */
  ghost predicate RowsHaveLength(items: seq<Entry>, n: nat) {
    forall k :: 0 <= k < |items| ==> |items[k].1| == n
  }

  /** Every row of the list has a value at position `i`. */
  ghost predicate RowsLongerThan(items: seq<Entry>, i: nat) {
    forall k :: 0 <= k < |items| ==> i < |items[k].1|
  }

  ghost predicate DistinctIds(items: seq<Entry>) {
    forall j, k :: 0 <= j < k < |items| ==> items[j].0 != items[k].0
  }

  lemma {:induction false} IdPositionFindsLookup(items: seq<Entry>, id: nat)
    ensures IdPosition(items, id).None? <==> Lookup(items, id).None?
    ensures IdPosition(items, id).Some? ==>
              Lookup(items, id) == Some(items[IdPosition(items, id).value].1)
    ensures IdPosition(items, id).Some? <==> id in Ids(items)
  {
    var p := (e: Entry) => e.0 == id;
    if |items| > 0 && items[0].0 != id {
      IdPositionFindsLookup(items[1..], id);
      assert Ids(items[1..]) == Ids(items)[1..];
      assert IdPosition(items, id).Some? ==> IdPosition(items, id).value > 0;
      match IdPosition(items[1..], id)
      case None =>
      case Some(i) =>
        assert FirstIndex(items[1..], p) == Some(i);
    }
    if IdPosition(items, id).None? {
      assert forall k :: 0 <= k < |items| ==> Ids(items)[k] != id;
    } else {
      assert Ids(items)[IdPosition(items, id).value] == id;
    }
  }

  /** A lookup after replacing the first entry with `id` by `(id, row)`. */
  lemma {:induction false} LookupReplaceFirst(items: seq<Entry>, i: nat, id: nat, row: Row, x: nat)
    requires i < |items| && items[i].0 == id
    requires forall j :: 0 <= j < i ==> items[j].0 != id
    ensures Lookup(items[i := (id, row)], x) == if x == id then Some(row) else Lookup(items, x)
  {
    if i > 0 {
      assert items[i := (id, row)][1..] == items[1..][i - 1 := (id, row)];
      if items[0].0 != x {
        LookupReplaceFirst(items[1..], i - 1, id, row, x);
      }
    }
  }

  lemma {:induction false} LookupAppend(items: seq<Entry>, e: Entry, x: nat)
    ensures Lookup(items + [e], x) ==
              if Lookup(items, x).Some? then Lookup(items, x)
              else if e.0 == x then Some(e.1) else None
  {
    if |items| > 0 {
      assert (items + [e])[1..] == items[1..] + [e];
      LookupAppend(items[1..], e, x);
    } else {
      assert (items + [e])[1..] == [];
    }
  }

  lemma {:induction false} LookupRemoveFirst(items: seq<Entry>, i: nat, id: nat, x: nat)
    requires i < |items| && items[i].0 == id
    requires forall j :: 0 <= j < i ==> items[j].0 != id
    requires x != id
    ensures Lookup(RemoveAt(items, i), x) == Lookup(items, x)
  {
    if i > 0 {
      assert RemoveAt(items, i)[1..] == RemoveAt(items[1..], i - 1);
      LookupRemoveFirst(items[1..], i - 1, id, x);
    } else {
      assert RemoveAt(items, 0) == items[1..];
    }
  }

  /** `insert_data`'s list update: replace the first entry with `id` in place,
      or append `(id, row)` when there is none. */
  function Upsert(items: seq<Entry>, id: nat, row: Row): (r: seq<Entry>)
    ensures Ids(r) == if id in Ids(items) then Ids(items) else Ids(items) + [id]
    ensures Lookup(r, id) == Some(row)
    ensures forall x :: x != id ==> Lookup(r, x) == Lookup(items, x)
    ensures forall k :: 0 <= k < |items| && items[k].0 != id ==> r[k] == items[k]
    ensures id in Ids(items) ==>
              exists i :: 0 <= i < |items| && items[i].0 == id
                          && (forall j :: 0 <= j < i ==> items[j].0 != id)
                          && r == items[i := (id, row)]
    ensures id !in Ids(items) ==> r == items + [(id, row)]
  {
    IdPositionFindsLookup(items, id);
    match IdPosition(items, id)
    case Some(i) =>
      var r := items[i := (id, row)];
      assert Ids(r) == Ids(items);
      LookupReplaceFirst(items, i, id, row, id);
      assert forall x :: x != id ==> Lookup(r, x) == Lookup(items, x) by {
        forall x | x != id {
          LookupReplaceFirst(items, i, id, row, x);
        }
      }
      r
    case None =>
      var r := items + [(id, row)];
      assert Ids(r) == Ids(items) + [id];
      LookupAppend(items, (id, row), id);
      assert forall x :: x != id ==> Lookup(r, x) == Lookup(items, x) by {
        forall x | x != id {
          LookupAppend(items, (id, row), x);
        }
      }
      r
  }

  /** `delete_data`'s list update: drop the first entry with `id`; an absent
      id leaves the list as it is. */
  function RemoveFirst(items: seq<Entry>, id: nat): (r: seq<Entry>)
    ensures id !in Ids(items) ==> r == items
    ensures id in Ids(items) ==>
              exists i :: 0 <= i < |items| && items[i].0 == id
                          && (forall j :: 0 <= j < i ==> items[j].0 != id)
                          && r == items[..i] + items[i + 1..]
    ensures forall x :: x != id ==> Lookup(r, x) == Lookup(items, x)
  {
    IdPositionFindsLookup(items, id);
    match IdPosition(items, id)
    case Some(i) =>
      var r := RemoveAt(items, i);
      assert forall x :: x != id ==> Lookup(r, x) == Lookup(items, x) by {
        forall x | x != id {
          LookupRemoveFirst(items, i, id, x);
        }
      }
      r
    case None => items
  }

  /** An upsert keeps the ids distinct: it either rewrites an entry in place
      or appends an id the list does not hold. */
  lemma UpsertKeepsDistinct(items: seq<Entry>, id: nat, row: Row)
    requires DistinctIds(items)
    ensures DistinctIds(Upsert(items, id, row))
  {
    var r := Upsert(items, id, row);
    assert |Ids(r)| == |r|;
    forall j, k | 0 <= j < k < |r|
      ensures r[j].0 != r[k].0
    {
      assert Ids(r)[j] == r[j].0 && Ids(r)[k] == r[k].0;
      assert Ids(items)[j] == items[j].0;
      if k < |items| {
        assert Ids(items)[k] == items[k].0;
      }
    }
  }

  /** With distinct ids, removal leaves no entry with that id behind and
      keeps the ids distinct. */
  lemma RemoveFirstDistinct(items: seq<Entry>, id: nat)
    requires DistinctIds(items)
    ensures DistinctIds(RemoveFirst(items, id))
    ensures id !in Ids(RemoveFirst(items, id))
  {
    var r := RemoveFirst(items, id);
    if id in Ids(items) {
      var i :| 0 <= i < |items| && items[i].0 == id && r == items[..i] + items[i + 1..];
      assert forall k :: 0 <= k < |r| ==> r[k] == items[if k < i then k else k + 1];
    }
  }

  /** `add_column`'s row rewrite: every row gains `v` at its end. */
  function AppendValue(items: seq<Entry>, v: Value): (r: seq<Entry>)
    ensures |r| == |items|
    ensures forall k :: 0 <= k < |r| ==> r[k].0 == items[k].0 && r[k].1 == items[k].1 + [v]
  {
    if |items| == 0 then []
    else [(items[0].0, items[0].1 + [v])] + AppendValue(items[1..], v)
  }

  /** `drop_column`'s row rewrite: every row loses position `i`. */
  function DropValue(items: seq<Entry>, i: nat): (r: seq<Entry>)
    requires RowsLongerThan(items, i)
    ensures |r| == |items|
    ensures forall k :: 0 <= k < |r| ==> r[k].0 == items[k].0 && r[k].1 == RemoveAt(items[k].1, i)
  {
    if |items| == 0 then []
    else [(items[0].0, RemoveAt(items[0].1, i))] + DropValue(items[1..], i)
  }

  /** Dropping the position that was just appended restores every row. */
  lemma AppendThenDrop(items: seq<Entry>, v: Value, n: nat)
    requires RowsHaveLength(items, n)
    ensures RowsLongerThan(AppendValue(items, v), n)
    ensures DropValue(AppendValue(items, v), n) == items
  {
    var a := AppendValue(items, v);
    var d := DropValue(a, n);
    forall k | 0 <= k < |items|
      ensures d[k] == items[k]
    {
      RemoveAtAppended(items[k].1, v);
    }
  }

  lemma UpsertKeepsLength(items: seq<Entry>, id: nat, row: Row, n: nat)
    requires RowsHaveLength(items, n) && |row| == n
    ensures RowsHaveLength(Upsert(items, id, row), n)
  {
    var r := Upsert(items, id, row);
    assert |r| == |Ids(r)|;
    forall k | 0 <= k < |r|
      ensures |r[k].1| == n
    {
      if k < |items| && items[k].0 != id {
      } else {
        assert Ids(r)[k] == id;
        IdPositionFindsLookup(items, id);
      }
    }
  }

  lemma RemoveFirstKeepsLength(items: seq<Entry>, id: nat, n: nat)
    requires RowsHaveLength(items, n)
    ensures RowsHaveLength(RemoveFirst(items, id), n)
  {
    var r := RemoveFirst(items, id);
    if id in Ids(items) {
      var i :| 0 <= i < |items| && items[i].0 == id && r == items[..i] + items[i + 1..];
      assert forall k :: 0 <= k < |r| ==> r[k] == items[if k < i then k else k + 1];
    }
  }

  lemma AppendValueLength(items: seq<Entry>, v: Value, n: nat)
    requires RowsHaveLength(items, n)
    ensures RowsHaveLength(AppendValue(items, v), n + 1)
  {
  }

  lemma DropValueLength(items: seq<Entry>, i: nat, n: nat)
    requires RowsHaveLength(items, n) && i < n
    ensures RowsLongerThan(items, i)
    ensures RowsHaveLength(DropValue(items, i), n - 1)
  {
  }
}

=== FILE: memory_properties.dfy ===
/** Properties of the in-memory backend that span several operations: ids
    issued along any run of operations strictly increase, the row-length
    invariant survives every operation, ADD COLUMN followed by DROP COLUMN
    restores the table, and a rename followed by the reverse rename restores
    the store. */
module MemoryProperties {
  import opened Entities
  import opened Seqs
  import opened Items
  import opened Columns
  import opened MemoryStorage

  // ----- Runs of operations and the shared id counter -----

  datatype Op =
    | GenerateIdOp(table: string)
    | InsertSchemaOp(schema: Schema)
    | DeleteSchemaOp(table: string)
    | InsertDataOp(key: Key, row: Row)
    | DeleteDataOp(key: Key)
    | RenameSchemaOp(table: string, newTable: string)
    | RenameColumnOp(table: string, oldName: string, newName: string)
    | AddColumnOp(table: string, column: ColumnDef)
    | DropColumnOp(table: string, name: string, ifExists: bool)

  /** One operation against `s`, continuing with whichever store it hands
      back (success or failure, as the ownership-return contract allows).
      The second component is the id issued, if any. `None` is a panic
      (DROP COLUMN over a row too short), which ends the run. */
  ghost function Step(s: MemoryStore, op: Op, ev: Evaluator): Option<(MemoryStore, Option<nat>)> {
    match op
    case GenerateIdOp(t) => var r := GenerateId(s, t); Some((r.store, Some(r.value.id)))
    case InsertSchemaOp(schema) => Some((InsertSchema(s, schema).store, None))
    case DeleteSchemaOp(t) => Some((DeleteSchema(s, t).store, None))
    case InsertDataOp(key, row) => Some((InsertData(s, key, row).store, None))
    case DeleteDataOp(key) => Some((DeleteData(s, key).store, None))
    case RenameSchemaOp(t, u) => Some((RenameSchema(s, t, u).store, None))
    case RenameColumnOp(t, a, b) => Some((RenameColumn(s, t, a, b).store, None))
    case AddColumnOp(t, c) => Some((AddColumn(s, t, c, ev).store, None))
    case DropColumnOp(t, n, e) =>
      if DropSafe(s, t, n) then Some((DropColumn(s, t, n, e).store, None)) else None
  }

  /** Runs `ops` in order from `s`; the final store and the ids issued. */
  ghost function Run(s: MemoryStore, ops: seq<Op>, ev: Evaluator): (MemoryStore, seq<nat>)
    decreases |ops|
  {
    if |ops| == 0 then (s, [])
    else
      match Step(s, ops[0], ev)
      case None => (s, [])
      case Some(next) =>
        var rest := Run(next.0, ops[1..], ev);
        (rest.0, (if next.1.Some? then [next.1.value] else []) + rest.1)
  }

  ghost predicate StrictlyIncreasing(ids: seq<nat>) {
    forall i, j :: 0 <= i < j < |ids| ==> ids[i] < ids[j]
  }

  /** Only GenerateId moves the counter, and it moves it to the id it issues. */
  lemma StepCounter(s: MemoryStore, op: Op, ev: Evaluator)
    requires Step(s, op, ev).Some?
    ensures var next := Step(s, op, ev).value;
            && (next.1.None? ==> next.0.id == s.id)
            && (next.1.Some? ==> next.1.value == next.0.id && next.0.id > s.id)
  {
  }

  /** Along any run, whatever succeeds or fails, the ids issued strictly
      increase, all lie above the starting counter and none above the final
      one: no id is issued twice, deletes notwithstanding. */
  lemma {:induction false} RunIssuesIncreasingIds(s: MemoryStore, ops: seq<Op>, ev: Evaluator)
    ensures var (final, ids) := Run(s, ops, ev);
            && StrictlyIncreasing(ids)
            && (forall i :: 0 <= i < |ids| ==> s.id < ids[i] <= final.id)
            && s.id <= final.id
    decreases |ops|
  {
    if |ops| > 0 {
      match Step(s, ops[0], ev)
      case None =>
      case Some(next) =>
        StepCounter(s, ops[0], ev);
        RunIssuesIncreasingIds(next.0, ops[1..], ev);
    }
  }

  // ----- Ids in the tables never exceed the counter -----

  /** Every stored row id, in every table, is at most the counter. */
  ghost predicate IdsIssued(s: MemoryStore) {
    forall t, k :: 0 <= k < |Rows(s, t)| ==> Rows(s, t)[k].0 <= s.id
  }

  /** Under `IdsIssued`, a generated id is in no table yet: inserting with
      it appends, never overwrites. */
  lemma GeneratedIdIsFresh(s: MemoryStore, t: string, x: string)
    requires IdsIssued(s)
    ensures GenerateId(s, t).value.id !in Ids(Rows(s, x))
    ensures IdsIssued(GenerateId(s, t).store)
  {
    var id := GenerateId(s, t).value.id;
    assert forall k :: 0 <= k < |Ids(Rows(s, x))| ==> Ids(Rows(s, x))[k] < id;
    var s1 := GenerateId(s, t).store;
    assert forall y :: Rows(s1, y) == Rows(s, y);
  }

  /** Inserting under an id already issued keeps every id at most the counter. */
  lemma InsertDataKeepsIdsIssued(s: MemoryStore, key: Key, row: Row)
    requires IdsIssued(s) && key.id <= s.id
    ensures IdsIssued(InsertData(s, key, row).store)
  {
    var s1 := InsertData(s, key, row).store;
    forall t, k | 0 <= k < |Rows(s1, t)|
      ensures Rows(s1, t)[k].0 <= s1.id
    {
      if t == key.tableName {
        var before := Rows(s, t);
        var after := Rows(s1, t);
        assert Ids(after)[k] == after[k].0;
        if Ids(after)[k] != key.id {
          assert k < |Ids(before)|;
          assert Ids(before)[k] == before[k].0;
        }
      }
    }
  }

  // ----- Positional alignment of rows with columns -----

  /** Every row of every table that has a schema has one value per column. */
  ghost predicate Aligned(s: MemoryStore) {
    forall t :: t in s.schemaMap ==> RowsHaveLength(Rows(s, t), |s.schemaMap[t].columns|)
  }

  lemma AlignedDropSafe(s: MemoryStore, t: string, name: string)
    requires Aligned(s)
    ensures DropSafe(s, t, name)
  {
  }

  lemma AddColumnKeepsAligned(s: MemoryStore, t: string, c: ColumnDef, ev: Evaluator)
    requires Aligned(s)
    ensures Aligned(AddColumn(s, t, c, ev).store)
  {
    var r := AddColumn(s, t, c, ev);
    if r.Done? {
      AppendValueLength(Rows(s, t), FillValue(c, ev).value, |s.schemaMap[t].columns|);
    }
  }

  lemma DropColumnKeepsAligned(s: MemoryStore, t: string, name: string, ifExists: bool)
    requires Aligned(s)
    ensures DropSafe(s, t, name)
    ensures Aligned(DropColumn(s, t, name, ifExists).store)
  {
    if t in s.schemaMap && HasColumn(s.schemaMap[t].columns, name) {
      var i := ColumnPosition(s.schemaMap[t].columns, name).value;
      DropValueLength(Rows(s, t), i, |s.schemaMap[t].columns|);
    }
  }

  /** The operations a caller may issue without breaking alignment: a new
      schema must fit the rows already stored under its name, and a row
      must fit its table's schema. */
  ghost predicate Fits(s: MemoryStore, op: Op) {
    match op
    case InsertSchemaOp(schema) => RowsHaveLength(Rows(s, schema.tableName), |schema.columns|)
    case InsertDataOp(key, row) => key.tableName in s.schemaMap ==> |row| == |s.schemaMap[key.tableName].columns|
    case _ => true
  }

  /** Every operation that fits keeps every table aligned and never panics. */
  lemma StepKeepsAligned(s: MemoryStore, op: Op, ev: Evaluator)
    requires Aligned(s) && Fits(s, op)
    ensures Step(s, op, ev).Some?
    ensures Aligned(Step(s, op, ev).value.0)
  {
    match op
    case GenerateIdOp(t) =>
    case InsertSchemaOp(schema) =>
    case DeleteSchemaOp(t) =>
    case InsertDataOp(key, row) =>
      if key.tableName in s.schemaMap {
        UpsertKeepsLength(Rows(s, key.tableName), key.id, row, |s.schemaMap[key.tableName].columns|);
      }
    case DeleteDataOp(key) =>
      if key.tableName in s.schemaMap {
        RemoveFirstKeepsLength(Rows(s, key.tableName), key.id, |s.schemaMap[key.tableName].columns|);
      }
    case RenameSchemaOp(t, u) =>
    case RenameColumnOp(t, a, b) =>
    case AddColumnOp(t, c) => AddColumnKeepsAligned(s, t, c, ev);
    case DropColumnOp(t, n, e) => DropColumnKeepsAligned(s, t, n, e);
  }

  // ----- Schemas filed under their own name -----

  /** Every schema is stored under the table name it carries. */
  ghost predicate SelfNamed(s: MemoryStore) {
    forall t :: t in s.schemaMap ==> s.schemaMap[t].tableName == t
  }

  /** Every operation keeps schemas filed under their own names: INSERT
      SCHEMA files a schema under its name, RENAME TABLE and DROP COLUMN
      rewrite the name to the slot they write. */
  lemma StepKeepsSelfNamed(s: MemoryStore, op: Op, ev: Evaluator)
    requires SelfNamed(s)
    requires Step(s, op, ev).Some?
    ensures SelfNamed(Step(s, op, ev).value.0)
  {
  }

  // ----- No id twice within a table -----

  /** Within every table no two entries share an id, so `delete_data`
      removes a row completely. */
  ghost predicate DistinctRows(s: MemoryStore) {
    forall t :: DistinctIds(Rows(s, t))
  }

  /** Every operation keeps the ids of every table distinct. */
  lemma StepKeepsDistinctRows(s: MemoryStore, op: Op, ev: Evaluator)
    requires DistinctRows(s)
    requires Step(s, op, ev).Some?
    ensures DistinctRows(Step(s, op, ev).value.0)
  {
    match op
    case InsertDataOp(key, row) =>
      UpsertKeepsDistinct(Rows(s, key.tableName), key.id, row);
    case DeleteDataOp(key) =>
      RemoveFirstDistinct(Rows(s, key.tableName), key.id);
    case _ =>
  }

  /** Starting from a store with distinct ids (a new store has no rows at
      all), every run keeps them distinct. */
  lemma {:induction false} RunKeepsDistinctRows(s: MemoryStore, ops: seq<Op>, ev: Evaluator)
    requires DistinctRows(s)
    ensures DistinctRows(Run(s, ops, ev).0)
    decreases |ops|
  {
    if |ops| > 0 {
      match Step(s, ops[0], ev)
      case None =>
      case Some(next) =>
        StepKeepsDistinctRows(s, ops[0], ev);
        RunKeepsDistinctRows(next.0, ops[1..], ev);
    }
  }

  lemma NewHasDistinctRows()
    ensures DistinctRows(New())
  {
  }

  // ----- Round trips -----

  /** ADD COLUMN then DROP COLUMN of the same name restores every table's
      schema and rows: the added name is new, so it is found in last place,
      and every row loses exactly the value it gained. */
  lemma AddThenDropRestores(s: MemoryStore, t: string, c: ColumnDef, ev: Evaluator)
    requires Aligned(s)
    requires t in s.schemaMap && s.schemaMap[t].tableName == t
    requires AddColumn(s, t, c, ev).Done?
    ensures var s1 := AddColumn(s, t, c, ev).store;
            && DropSafe(s1, t, c.name)
            && var r := DropColumn(s1, t, c.name, false);
               && r.Done?
               && r.store.id == s.id
               && UnchangedExcept(s, r.store, {})
  {
    var s1 := AddColumn(s, t, c, ev).store;
    var columns := s.schemaMap[t].columns;
    AddColumnKeepsAligned(s, t, c, ev);
    AppendFreshColumn(columns, c);
    HasColumnIffPosition(columns + [c], c.name);
    AppendThenDrop(Rows(s, t), FillValue(c, ev).value, |columns|);
    RemoveAtAppended(columns, c);
    var r := DropColumn(s1, t, c.name, false);
    assert FetchSchema(r.store, t) == FetchSchema(s, t);
  }

  /** Renaming a table to a free name and back restores every table. */
  lemma RenameBackRestores(s: MemoryStore, t: string, u: string)
    requires t in s.schemaMap && s.schemaMap[t].tableName == t
    requires u != t && u !in s.schemaMap && Rows(s, u) == []
    ensures var r1 := RenameSchema(s, t, u);
            && r1.Done?
            && var r2 := RenameSchema(r1.store, u, t);
               && r2.Done?
               && r2.store.id == s.id
               && UnchangedExcept(s, r2.store, {})
  {
    var s1 := RenameSchema(s, t, u).store;
    var s2 := RenameSchema(s1, u, t).store;
    assert FetchSchema(s2, t) == FetchSchema(s, t);
    assert FetchSchema(s2, u) == FetchSchema(s, u);
  }

  /** What `scan_data` shows after `insert_data`: the row under its key,
      in the place its id already held or else last. */
  lemma InsertThenScan(s: MemoryStore, key: Key, row: Row)
    ensures var before := ScanData(s, key.tableName);
            var after := ScanData(InsertData(s, key, row).store, key.tableName);
            && (exists k :: 0 <= k < |after| && after[k] == (key, row))
            && (key.id in Ids(Rows(s, key.tableName)) ==>
                  |after| == |before| && forall k :: 0 <= k < |after| ==> after[k].0 == before[k].0)
            && (key.id !in Ids(Rows(s, key.tableName)) ==>
                  after == before + [(key, row)])
  {
    var items := Rows(s, key.tableName);
    var s1 := InsertData(s, key, row).store;
    var r := Rows(s1, key.tableName);
    IdPositionFindsLookup(r, key.id);
    var k := IdPosition(r, key.id).value;
    assert ScanData(s1, key.tableName)[k] == (key, row);
    if key.id in Ids(items) {
      assert |Ids(r)| == |Ids(items)|;
      forall j | 0 <= j < |r|
        ensures ScanData(s1, key.tableName)[j].0 == ScanData(s, key.tableName)[j].0
      {
        assert Ids(r)[j] == Ids(items)[j];
      }
    } else {
      assert |Ids(r)| == |Ids(items)| + 1;
      assert forall j :: 0 <= j < |items| ==> r[j] == items[j] by {
        forall j | 0 <= j < |items|
          ensures r[j] == items[j]
        {
          assert Ids(items)[j] == items[j].0;
        }
      }
      assert Ids(r)[|items|] == key.id;
      IdPositionFindsLookup(items, key.id);
    }
  }
}

=== FILE: memory_storage.dfy ===
/** The in-process backend. Its state is a schema map, a data map from table
    name to row list, and one id counter shared by every table. Each mutating
    operation takes the store by value and returns either the new store with
    a value or the original store with an error. */
module MemoryStorage {
  import opened Entities
  import opened Seqs
  import opened Items
  import opened Columns

  datatype MemoryStore = MemoryStore(
    schemaMap: map<string, Schema>,
    dataMap: map<string, seq<Entry>>,
    id: nat)

  /** A table's row list; a table with no list reads as empty, as the
      `extract` fallback does. */
  function Rows(s: MemoryStore, table: string): seq<Entry> {
    if table in s.dataMap then s.dataMap[table] else []
  }

  /** Every table outside `tables` has the same schema and rows in `a` and `b`. */
  ghost predicate UnchangedExcept(a: MemoryStore, b: MemoryStore, tables: set<string>) {
    forall x :: x !in tables ==> FetchSchema(b, x) == FetchSchema(a, x) && Rows(b, x) == Rows(a, x)
  }

  /** An empty store with the counter at 0. */
  function New(): (s: MemoryStore)
    ensures forall t :: FetchSchema(s, t) == None && ScanData(s, t) == []
    ensures s.id == 0
  {
    MemoryStore(map[], map[], 0)
  }

  // ----- Store: the read capability -----

  function FetchSchema(s: MemoryStore, table: string): (r: Option<Schema>)
    ensures r.Some? <==> table in s.schemaMap
    ensures r.Some? ==> r.value == s.schemaMap[table]
  {
    if table in s.schemaMap then Some(s.schemaMap[table]) else None
  }

  /** The table's rows in list order, each tagged with its key; a table
      without rows yields nothing. */
  function ScanData(s: MemoryStore, table: string): (r: seq<(Key, Row)>)
    ensures table !in s.dataMap ==> r == []
    ensures |r| == |Rows(s, table)|
    ensures forall k :: 0 <= k < |r| ==> r[k].0 == Key(table, Rows(s, table)[k].0) && r[k].1 == Rows(s, table)[k].1
  {
    Scan(table, Rows(s, table))
  }

  // ----- StoreMut: the mutate capability -----

  /** Issues `id + 1` from the counter shared by all tables and keeps it as
      the new counter; no table changes. */
  function GenerateId(s: MemoryStore, table: string): (r: MutResult<MemoryStore, Key>)
    ensures r.Done? && r.value.tableName == table
    ensures r.value.id == s.id + 1 && r.store.id == r.value.id
    ensures UnchangedExcept(s, r.store, {})
  {
    var id := s.id + 1;
    Done(s.(id := id), Key(table, id))
  }

  /** Installs or overwrites the schema under its own table name. */
  function InsertSchema(s: MemoryStore, schema: Schema): (r: MutResult<MemoryStore, ()>)
    ensures r.Done? && r.store.id == s.id
    ensures FetchSchema(r.store, schema.tableName) == Some(schema)
    ensures Rows(r.store, schema.tableName) == Rows(s, schema.tableName)
    ensures UnchangedExcept(s, r.store, {schema.tableName})
  {
    Done(s.(schemaMap := s.schemaMap[schema.tableName := schema]), ())
  }

  /** Removes the table's schema and rows; an absent table is no error. */
  function DeleteSchema(s: MemoryStore, table: string): (r: MutResult<MemoryStore, ()>)
    ensures r.Done? && r.store.id == s.id
    ensures FetchSchema(r.store, table) == None && ScanData(r.store, table) == []
    ensures UnchangedExcept(s, r.store, {table})
  {
    Done(s.(schemaMap := s.schemaMap - {table}, dataMap := s.dataMap - {table}), ())
  }

  /** Upserts the row into the key's table: in place when the id is present,
      appended otherwise. The schema is not consulted. */
  function InsertData(s: MemoryStore, key: Key, row: Row): (r: MutResult<MemoryStore, ()>)
    ensures r.Done? && r.store.id == s.id
    ensures Rows(r.store, key.tableName) == Upsert(Rows(s, key.tableName), key.id, row)
    ensures FetchSchema(r.store, key.tableName) == FetchSchema(s, key.tableName)
    ensures UnchangedExcept(s, r.store, {key.tableName})
  {
    var items := Upsert(Rows(s, key.tableName), key.id, row);
    Done(s.(dataMap := s.dataMap[key.tableName := items]), ())
  }

  /** Removes the first row with the key's id; an absent id or table leaves
      the rows as they were (an absent table gains an empty list). */
  function DeleteData(s: MemoryStore, key: Key): (r: MutResult<MemoryStore, ()>)
    ensures r.Done? && r.store.id == s.id
    ensures Rows(r.store, key.tableName) == RemoveFirst(Rows(s, key.tableName), key.id)
    ensures FetchSchema(r.store, key.tableName) == FetchSchema(s, key.tableName)
    ensures UnchangedExcept(s, r.store, {key.tableName})
  {
    var items := RemoveFirst(Rows(s, key.tableName), key.id);
    Done(s.(dataMap := s.dataMap[key.tableName := items]), ())
  }

  // ----- AlterTable: the alter capability -----

  /** Moves the schema (renamed) and the rows from `table` to `newTable`.
      The new slot is written before the old one is removed, so renaming a
      table to its own name removes its schema. */
  function RenameSchema(s: MemoryStore, table: string, newTable: string): (r: MutResult<MemoryStore, ()>)
    ensures r.Failed? ==> r.store == s
    ensures r.store.id == s.id
    ensures table !in s.schemaMap ==> r == Failed(s, TableNotFound(table))
    ensures table in s.schemaMap ==> r.Done? && r.store.id == s.id
    ensures table in s.schemaMap && newTable != table ==>
              && FetchSchema(r.store, newTable) == Some(s.schemaMap[table].(tableName := newTable))
              && FetchSchema(r.store, table) == None
              && Rows(r.store, newTable) == Rows(s, table)
              && Rows(r.store, table) == []
    ensures table in s.schemaMap && newTable == table ==>
              FetchSchema(r.store, table) == None && Rows(r.store, table) == Rows(s, table)
    ensures UnchangedExcept(s, r.store, {table, newTable})
  {
    if table !in s.schemaMap then Failed(s, TableNotFound(table))
    else
      var schema := s.schemaMap[table].(tableName := newTable);
      var schemaMap := s.schemaMap[newTable := schema] - {table};
      var items := Rows(s, table);
      var dataMap := (s.dataMap - {table})[newTable := items];
      Done(MemoryStore(schemaMap, dataMap, s.id), ())
  }

  /** Renames the first column called `oldName`; nothing else changes, rows
      included, since columns are positional. */
  function RenameColumn(s: MemoryStore, table: string, oldName: string, newName: string): (r: MutResult<MemoryStore, ()>)
    ensures r.Failed? ==> r.store == s
    ensures r.store.id == s.id
    ensures table !in s.schemaMap ==> r == Failed(s, TableNotFound(table))
    ensures table in s.schemaMap && !HasColumn(s.schemaMap[table].columns, oldName) ==>
              r == Failed(s, RenamingColumnNotFound)
    ensures table in s.schemaMap && HasColumn(s.schemaMap[table].columns, oldName) ==>
              && r.Done? && r.store.id == s.id
              && var before := s.schemaMap[table];
                 var i := ColumnPosition(before.columns, oldName).value;
                 && FetchSchema(r.store, table) == Some(before.(columns := RenameColumnAt(before.columns, i, newName)))
                 && before.columns[i].name == oldName
                 && (forall j :: 0 <= j < i ==> before.columns[j].name != oldName)
                 && Rows(r.store, table) == Rows(s, table)
    ensures UnchangedExcept(s, r.store, {table})
  {
    if table !in s.schemaMap then Failed(s, TableNotFound(table))
    else
      var schema := s.schemaMap[table];
      HasColumnIffPosition(schema.columns, oldName);
      match ColumnPosition(schema.columns, oldName)
      case None => Failed(s, RenamingColumnNotFound)
      case Some(i) =>
        var renamed := schema.(columns := RenameColumnAt(schema.columns, i, newName));
        Done(s.(schemaMap := s.schemaMap[table := renamed]), ())
  }

  /** Appends the column to the schema and the fill value to every row. A
      missing table, a duplicate name, an evaluator failure and a column that
      needs a default but has none all leave the store as it was. */
  function AddColumn(s: MemoryStore, table: string, c: ColumnDef, ev: Evaluator): (r: MutResult<MemoryStore, ()>)
    ensures table !in s.schemaMap ==> r == Failed(s, TableNotFound(table))
    ensures table in s.schemaMap && HasColumn(s.schemaMap[table].columns, c.name) ==>
              r == Failed(s, AddingColumnAlreadyExists(c.name))
    ensures table in s.schemaMap && !HasColumn(s.schemaMap[table].columns, c.name) && FillValue(c, ev).Err? ==>
              r == Failed(s, FillValue(c, ev).error)
    ensures table in s.schemaMap && !HasColumn(s.schemaMap[table].columns, c.name) && FillValue(c, ev).Ok? ==> r.Done?
    ensures r.Done? ==>
              && table in s.schemaMap && FillValue(c, ev).Ok? && r.store.id == s.id
              && FetchSchema(r.store, table) == Some(s.schemaMap[table].(columns := s.schemaMap[table].columns + [c]))
              && Rows(r.store, table) == AppendValue(Rows(s, table), FillValue(c, ev).value)
    ensures r.Failed? ==> r.store == s
    ensures r.store.id == s.id
    ensures UnchangedExcept(s, r.store, {table})
  {
    if table !in s.schemaMap then Failed(s, TableNotFound(table))
    else
      var schema := s.schemaMap[table];
      if HasColumn(schema.columns, c.name) then Failed(s, AddingColumnAlreadyExists(c.name))
      else
        match FillValue(c, ev)
        case Err(e) => Failed(s, e)
        case Ok(v) =>
          var schemaMap := s.schemaMap[table := schema.(columns := schema.columns + [c])];
          var dataMap := s.dataMap[table := AppendValue(Rows(s, table), v)];
          Done(MemoryStore(schemaMap, dataMap, s.id), ())
  }

  /** `drop_column` removes position i from every row with `Vec::remove`,
      which panics on a row that is too short; this is the condition under
      which it does not. */
  ghost predicate DropSafe(s: MemoryStore, table: string, name: string) {
    table in s.schemaMap && ColumnPosition(s.schemaMap[table].columns, name).Some? ==>
      RowsLongerThan(Rows(s, table), ColumnPosition(s.schemaMap[table].columns, name).value)
  }

  /** Removes the first column called `name` from the schema and the same
      position from every row. A missing column is a success without change
      under IF EXISTS and `DroppingColumnNotFound` otherwise. The rewritten
      schema is filed under `table` with `table` as its name. */
  function DropColumn(s: MemoryStore, table: string, name: string, ifExists: bool): (r: MutResult<MemoryStore, ()>)
    requires DropSafe(s, table, name)
    ensures r.Failed? ==> r.store == s
    ensures r.store.id == s.id
    ensures table !in s.schemaMap ==> r == Failed(s, TableNotFound(table))
    ensures table in s.schemaMap && !HasColumn(s.schemaMap[table].columns, name) ==>
              r == if ifExists then Done(s, ()) else Failed(s, DroppingColumnNotFound(name))
    ensures table in s.schemaMap && HasColumn(s.schemaMap[table].columns, name) ==>
              && r.Done? && r.store.id == s.id
              && var columns := s.schemaMap[table].columns;
                 var i := ColumnPosition(columns, name).value;
                 && columns[i].name == name
                 && FetchSchema(r.store, table) == Some(Schema(table, RemoveAt(columns, i)))
                 && Rows(r.store, table) == DropValue(Rows(s, table), i)
    ensures UnchangedExcept(s, r.store, {table})
  {
    if table !in s.schemaMap then Failed(s, TableNotFound(table))
    else
      var columns := s.schemaMap[table].columns;
      HasColumnIffPosition(columns, name);
      match ColumnPosition(columns, name)
      case None =>
        if ifExists then Done(s, ()) else Failed(s, DroppingColumnNotFound(name))
      case Some(i) =>
        var dataMap := s.dataMap[table := DropValue(Rows(s, table), i)];
        var schemaMap := s.schemaMap[table := Schema(table, RemoveAt(columns, i))];
        Done(MemoryStore(schemaMap, dataMap, s.id), ())
  }
}

=== FILE: scenarios.dfy ===
/** One concrete run of ALTER TABLE on each backend: a table `t(a INT NOT
    NULL, b INT NULL)` holding the row `(1, NULL)` under the first generated
    id gains `c INT DEFAULT 7` and then loses `b`. The evaluator is any one
    that reads the default expression as 7. */
module Scenarios {
  import opened Entities
  import Seqs
  import Items
  import Columns
  import MemoryStorage
  import WebStorage

  function ColumnA(): ColumnDef { ColumnDef("a", Int, [NotNull]) }
  function ColumnB(): ColumnDef { ColumnDef("b", Int, [AllowNull]) }
  function ColumnC(seven: Expr): ColumnDef { ColumnDef("c", Int, [Default(seven)]) }

  /** `c` is not nullable, and its default is what it fills rows with. */
  lemma FillsSeven(ev: Evaluator, seven: Expr)
    requires ev.fromExpr(Int, false, seven) == Ok(I64(7))
    ensures Columns.FillValue(ColumnC(seven), ev) == Ok(I64(7))
  {
    assert !Columns.IsNullable(ColumnC(seven));
    assert ColumnC(seven).options[0].Default?;
  }

  /** `b` is found second, and removing position 1 gives `(a, c)` and `(1, 7)`. */
  lemma DropsSecond(seven: Expr)
    ensures Columns.ColumnPosition([ColumnA(), ColumnB(), ColumnC(seven)], "b") == Some(1)
    ensures Seqs.RemoveAt([ColumnA(), ColumnB(), ColumnC(seven)], 1) == [ColumnA(), ColumnC(seven)]
    ensures Seqs.RemoveAt([I64(1), Null, I64(7)], 1) == [I64(1), I64(7)]
  {
    var columns := [ColumnA(), ColumnB(), ColumnC(seven)];
    Columns.HasColumnIffPosition(columns, "b");
    assert columns[1].name == "b";
    assert columns[0].name != "b";
  }

  lemma {:induction false} MemoryAddThenDrop(ev: Evaluator, seven: Expr)
    requires ev.fromExpr(Int, false, seven) == Ok(I64(7))
    ensures var s1 := MemoryStorage.InsertSchema(MemoryStorage.New(), Schema("t", [ColumnA(), ColumnB()])).store;
            var g := MemoryStorage.GenerateId(s1, "t");
            var s2 := MemoryStorage.InsertData(g.store, g.value, [I64(1), Null]).store;
            var s3 := MemoryStorage.AddColumn(s2, "t", ColumnC(seven), ev);
            && g.value == Key("t", 1)
            && s3.Done?
            && MemoryStorage.ScanData(s3.store, "t") == [(Key("t", 1), [I64(1), Null, I64(7)])]
            && MemoryStorage.DropSafe(s3.store, "t", "b")
            && var s4 := MemoryStorage.DropColumn(s3.store, "t", "b", false);
               && s4.Done?
               && MemoryStorage.ScanData(s4.store, "t") == [(Key("t", 1), [I64(1), I64(7)])]
               && MemoryStorage.FetchSchema(s4.store, "t") == Some(Schema("t", [ColumnA(), ColumnC(seven)]))
  {
    var s1 := MemoryStorage.InsertSchema(MemoryStorage.New(), Schema("t", [ColumnA(), ColumnB()])).store;
    var g := MemoryStorage.GenerateId(s1, "t");
    var s2 := MemoryStorage.InsertData(g.store, g.value, [I64(1), Null]).store;
    assert Items.Upsert([], 1, [I64(1), Null]) == [(1, [I64(1), Null])];
    assert MemoryStorage.Rows(s2, "t") == [(1, [I64(1), Null])];
    FillsSeven(ev, seven);
    assert [I64(1), Null] + [I64(7)] == [I64(1), Null, I64(7)];
    var s3 := MemoryStorage.AddColumn(s2, "t", ColumnC(seven), ev).store;
    assert MemoryStorage.Rows(s3, "t") == [(1, [I64(1), Null, I64(7)])];
    assert s3.schemaMap["t"].columns == [ColumnA(), ColumnB(), ColumnC(seven)];
    DropsSecond(seven);
    var s4 := MemoryStorage.DropColumn(s3, "t", "b", false).store;
    assert MemoryStorage.Rows(s4, "t") == [(1, [I64(1), I64(7)])];
  }

  /** The keyed table after CREATE TABLE and the first insert. */
  lemma WebCreateAndInsert(namespace: string)
    ensures var s1 := WebStorage.InsertSchema(WebStorage.WebStore(namespace, map[]), Schema("t", [ColumnA(), ColumnB()])).store;
            var g := WebStorage.GenerateId(s1, "t");
            && g.Done? && g.value == Key("t", 1)
            && var s2 := WebStorage.InsertData(g.store, g.value, [I64(1), Null]);
               && s2.Done? && s2.store.namespace == namespace
               && WebStorage.Get(s2.store.kv, WebStorage.SchemaPrefix(namespace, "t")) == Some(WebStorage.SchemaRecord(Schema("t", [ColumnA(), ColumnB()])))
               && WebStorage.Get(s2.store.kv, WebStorage.DataPrefix(namespace, "t")) == Some(WebStorage.RowsRecord([(1, [I64(1), Null])]))
  {
    var ns := namespace;
    var sk, dk, ik := WebStorage.SchemaPrefix(ns, "t"), WebStorage.DataPrefix(ns, "t"), WebStorage.IdPrefix(ns, "t");
    WebStorage.KeyInjective(ns, WebStorage.SchemaRole, "t", WebStorage.DataRole, "t");
    WebStorage.KeyInjective(ns, WebStorage.SchemaRole, "t", WebStorage.IdRole, "t");
    WebStorage.KeyInjective(ns, WebStorage.DataRole, "t", WebStorage.IdRole, "t");
    var s1 := WebStorage.InsertSchema(WebStorage.WebStore(namespace, map[]), Schema("t", [ColumnA(), ColumnB()])).store;
    assert dk !in s1.kv && ik !in s1.kv;
    var g := WebStorage.GenerateId(s1, "t");
    assert WebStorage.Get(g.store.kv, dk) == None;
    assert WebStorage.Get(g.store.kv, sk) == Some(WebStorage.SchemaRecord(Schema("t", [ColumnA(), ColumnB()])));
    assert g.value == Key("t", 1);
    assert WebStorage.LoadRows(g.store.kv, dk) == Ok([]);
    assert Items.Upsert([], 1, [I64(1), Null]) == [(1, [I64(1), Null])];
    var s2 := WebStorage.InsertData(g.store, g.value, [I64(1), Null]).store;
    assert WebStorage.Get(s2.kv, sk) == WebStorage.Get(g.store.kv, sk);
  }

  /** ADD COLUMN c on that table. */
  lemma WebAddC(ws: WebStorage.WebStore, ev: Evaluator, seven: Expr)
    requires ev.fromExpr(Int, false, seven) == Ok(I64(7))
    requires WebStorage.Get(ws.kv, WebStorage.SchemaPrefix(ws.namespace, "t")) == Some(WebStorage.SchemaRecord(Schema("t", [ColumnA(), ColumnB()])))
    requires WebStorage.Get(ws.kv, WebStorage.DataPrefix(ws.namespace, "t")) == Some(WebStorage.RowsRecord([(1, [I64(1), Null])]))
    ensures var r := WebStorage.AddColumn(ws, "t", ColumnC(seven), ev);
            && r.Done? && r.store.namespace == ws.namespace
            && WebStorage.Get(r.store.kv, WebStorage.SchemaPrefix(ws.namespace, "t")) == Some(WebStorage.SchemaRecord(Schema("t", [ColumnA(), ColumnB(), ColumnC(seven)])))
            && WebStorage.Get(r.store.kv, WebStorage.DataPrefix(ws.namespace, "t")) == Some(WebStorage.RowsRecord([(1, [I64(1), Null, I64(7)])]))
            && WebStorage.ScanData(r.store, "t") == Ok([(Key("t", 1), [I64(1), Null, I64(7)])])
  {
    WebStorage.KeyInjective(ws.namespace, WebStorage.SchemaRole, "t", WebStorage.DataRole, "t");
    FillsSeven(ev, seven);
    assert [I64(1), Null] + [I64(7)] == [I64(1), Null, I64(7)];
    assert [ColumnA(), ColumnB()] + [ColumnC(seven)] == [ColumnA(), ColumnB(), ColumnC(seven)];
    assert Items.AppendValue([(1, [I64(1), Null])], I64(7)) == [(1, [I64(1), Null, I64(7)])];
    assert Items.Scan("t", [(1, [I64(1), Null, I64(7)])]) == [(Key("t", 1), [I64(1), Null, I64(7)])];
  }

  /** DROP COLUMN b after that. */
  lemma WebDropB(ws: WebStorage.WebStore, seven: Expr)
    requires WebStorage.Get(ws.kv, WebStorage.SchemaPrefix(ws.namespace, "t")) == Some(WebStorage.SchemaRecord(Schema("t", [ColumnA(), ColumnB(), ColumnC(seven)])))
    requires WebStorage.Get(ws.kv, WebStorage.DataPrefix(ws.namespace, "t")) == Some(WebStorage.RowsRecord([(1, [I64(1), Null, I64(7)])]))
    ensures WebStorage.DropSafe(ws, "t", "b")
    ensures var r := WebStorage.DropColumn(ws, "t", "b", false);
            && r.Done?
            && WebStorage.ScanData(r.store, "t") == Ok([(Key("t", 1), [I64(1), I64(7)])])
            && WebStorage.FetchSchema(r.store, "t") == Ok(Some(Schema("t", [ColumnA(), ColumnC(seven)])))
  {
    WebStorage.KeyInjective(ws.namespace, WebStorage.SchemaRole, "t", WebStorage.DataRole, "t");
    DropsSecond(seven);
    assert Items.DropValue([(1, [I64(1), Null, I64(7)])], 1) == [(1, [I64(1), I64(7)])];
    assert Items.Scan("t", [(1, [I64(1), I64(7)])]) == [(Key("t", 1), [I64(1), I64(7)])];
  }

  lemma {:induction false} WebAddThenDrop(namespace: string, ev: Evaluator, seven: Expr)
    requires ev.fromExpr(Int, false, seven) == Ok(I64(7))
    ensures var s1 := WebStorage.InsertSchema(WebStorage.WebStore(namespace, map[]), Schema("t", [ColumnA(), ColumnB()])).store;
            var g := WebStorage.GenerateId(s1, "t");
            && g.Done? && g.value == Key("t", 1)
            && var s2 := WebStorage.InsertData(g.store, g.value, [I64(1), Null]);
               && s2.Done?
               && var s3 := WebStorage.AddColumn(s2.store, "t", ColumnC(seven), ev);
                  && s3.Done?
                  && WebStorage.ScanData(s3.store, "t") == Ok([(Key("t", 1), [I64(1), Null, I64(7)])])
                  && WebStorage.DropSafe(s3.store, "t", "b")
                  && var s4 := WebStorage.DropColumn(s3.store, "t", "b", false);
                     && s4.Done?
                     && WebStorage.ScanData(s4.store, "t") == Ok([(Key("t", 1), [I64(1), I64(7)])])
                     && WebStorage.FetchSchema(s4.store, "t") == Ok(Some(Schema("t", [ColumnA(), ColumnC(seven)])))
  {
    WebCreateAndInsert(namespace);
    var s1 := WebStorage.InsertSchema(WebStorage.WebStore(namespace, map[]), Schema("t", [ColumnA(), ColumnB()])).store;
    var g := WebStorage.GenerateId(s1, "t");
    var s2 := WebStorage.InsertData(g.store, g.value, [I64(1), Null]).store;
    WebAddC(s2, ev, seven);
    var s3 := WebStorage.AddColumn(s2, "t", ColumnC(seven), ev).store;
    WebDropB(s3, seven);
  }
}

=== FILE: seqs.dfy ===
/** Two sequence primitives the storage code leans on: finding the first
    position that satisfies a test (`Iterator::position`) and removing one
    position (`Vec::remove`). */
module Seqs {
  import opened Entities

  /** The index of the first element satisfying `p`, or `None`. */
  function FirstIndex<T>(s: seq<T>, p: T -> bool): (r: Option<nat>)
    ensures r.Some? ==> r.value < |s| && p(s[r.value])
    ensures r.Some? ==> forall j :: 0 <= j < r.value ==> !p(s[j])
    ensures r.None? <==> forall j :: 0 <= j < |s| ==> !p(s[j])
  {
    if |s| == 0 then None
    else if p(s[0]) then Some(0)
    else
      match FirstIndex(s[1..], p)
      case None => None
      case Some(i) => Some(i + 1)
  }

  /** `s` without position `i`; everything before `i` keeps its index and
      everything after moves down by one. */
  function RemoveAt<T>(s: seq<T>, i: nat): (r: seq<T>)
    requires i < |s|
    ensures |r| == |s| - 1
    ensures forall k :: 0 <= k < i ==> r[k] == s[k]
    ensures forall k :: i <= k < |r| ==> r[k] == s[k + 1]
  {
    s[..i] + s[i + 1..]
  }

  /** Removing the last position undoes appending one element. */
  lemma RemoveAtAppended<T>(s: seq<T>, x: T)
    ensures RemoveAt(s + [x], |s|) == s
  {
    assert (s + [x])[..|s|] == s;
  }
}

=== FILE: web_properties.dfy ===
/** Properties of the keyed backend that span several operations or keys:
    the id counter is per table and survives DROP TABLE, generated ids are
    fresh while every stored id is at most its table's counter, and an
    operation on one table leaves every other table's keys alone. */
module WebProperties {
  import opened Entities
  import opened Items
  import opened Columns
  import opened WebStorage

  /** Reading another table's counter, schema or rows after a write to
      table `t`'s keys gives what it gave before. */
  lemma OtherTableKeys(ns: string, t: string, x: string)
    requires x != t
    ensures forall r1: Role, r2: Role :: ItemKey(ns, r1, x) != ItemKey(ns, r2, t)
  {
    forall r1: Role, r2: Role
      ensures ItemKey(ns, r1, x) != ItemKey(ns, r2, t)
    {
      KeyInjective(ns, r1, x, r2, t);
    }
  }

  /** The counter belongs to one table: generating an id for `t` leaves
      every other table's counter as it was. */
  lemma CounterIsPerTable(ws: WebStore, t: string, x: string)
    requires x != t
    ensures Counter(GenerateId(ws, t).store, x) == Counter(ws, x)
  {
    OtherTableKeys(ws.namespace, t, x);
    assert IdPrefix(ws.namespace, x) != IdPrefix(ws.namespace, t);
    var k := IdPrefix(ws.namespace, x);
    assert Get(GenerateId(ws, t).store.kv, k) == Get(ws.kv, k);
  }

  /** DROP TABLE keeps the id record, so an id issued before the drop is
      never issued again for a table created under the same name. */
  lemma IdsNotReissuedAfterDrop(ws: WebStore, t: string)
    requires GenerateId(ws, t).Done?
    ensures var g1 := GenerateId(ws, t);
            var g2 := GenerateId(DeleteSchema(g1.store, t).store, t);
            g2.Done? && g2.value.id == g1.value.id + 1
  {
    var g1 := GenerateId(ws, t);
    var d := DeleteSchema(g1.store, t).store;
    assert Get(d.kv, IdPrefix(ws.namespace, t)) == Get(g1.store.kv, IdPrefix(ws.namespace, t));
    assert Counter(d, t) == Counter(g1.store, t);
  }

  /** Every id stored in `t`'s row list is at most `t`'s counter. */
  ghost predicate IdsIssued(ws: WebStore, t: string) {
    var rows := LoadRows(ws.kv, DataPrefix(ws.namespace, t));
    Counter(ws, t).Ok? && rows.Ok? ==>
      forall k :: 0 <= k < |rows.value| ==> rows.value[k].0 <= Counter(ws, t).value
  }

  /** Under `IdsIssued`, a generated id is not yet in the table, so the
      insert that follows appends rather than overwrites; and the invariant
      survives that insert. */
  lemma GeneratedIdIsFresh(ws: WebStore, t: string, row: Row)
    requires IdsIssued(ws, t)
    requires LoadRows(ws.kv, DataPrefix(ws.namespace, t)).Ok?
    requires GenerateId(ws, t).Done?
    ensures var g := GenerateId(ws, t);
            && g.value.id !in Ids(LoadRows(ws.kv, DataPrefix(ws.namespace, t)).value)
            && IdsIssued(InsertData(g.store, g.value, row).store, t)
  {
    var ns := ws.namespace;
    var g := GenerateId(ws, t);
    var dk := DataPrefix(ns, t);
    var items := LoadRows(ws.kv, dk).value;
    KeyInjective(ns, IdRole, t, DataRole, t);
    assert Get(g.store.kv, dk) == Get(ws.kv, dk);
    assert LoadRows(g.store.kv, dk) == LoadRows(ws.kv, dk);
    assert forall k :: 0 <= k < |Ids(items)| ==> Ids(items)[k] < g.value.id;
    var s2 := InsertData(g.store, g.value, row).store;
    var after := Upsert(items, g.value.id, row);
    assert LoadRows(s2.kv, dk) == Ok(after);
    assert Get(s2.kv, IdPrefix(ns, t)) == Get(g.store.kv, IdPrefix(ns, t));
    assert Counter(s2, t) == Counter(g.store, t);
    forall k | 0 <= k < |after|
      ensures after[k].0 <= g.value.id
    {
      assert Ids(after)[k] == after[k].0;
      if k < |items| {
        assert Ids(after)[k] == Ids(items)[k];
      }
    }
  }

  /** The failures of `insert_data`, `delete_data`, `generate_id`,
      `rename_schema` and `rename_column` all happen before any write. */
  lemma FailuresWriteNothing(ws: WebStore, t: string, u: string, key: Key, row: Row, a: string, b: string)
    ensures InsertData(ws, key, row).Failed? ==> InsertData(ws, key, row).store == ws
    ensures DeleteData(ws, key).Failed? ==> DeleteData(ws, key).store == ws
    ensures GenerateId(ws, t).Failed? ==> GenerateId(ws, t).store == ws
    ensures RenameSchema(ws, t, u).Failed? ==> RenameSchema(ws, t, u).store == ws
    ensures RenameColumn(ws, t, a, b).Failed? ==> RenameColumn(ws, t, a, b).store == ws
  {
  }

  /** `add_column`'s failures before its first write leave the map as it
      was: missing table, undecodable schema, duplicate name, evaluator
      failure, and `DefaultValueRequired`. */
  lemma AddColumnEarlyFailuresWriteNothing(ws: WebStore, t: string, c: ColumnDef, ev: Evaluator)
    requires AddColumn(ws, t, c, ev).Failed?
    requires !AddColumn(ws, t, c, ev).error.Storage? || AddColumn(ws, t, c, ev).error.key != DataPrefix(ws.namespace, t)
    ensures AddColumn(ws, t, c, ev).store == ws
  {
    KeyInjective(ws.namespace, SchemaRole, t, DataRole, t);
  }

  /** `drop_column` with a missing column writes nothing: success under IF
      EXISTS, `DroppingColumnNotFound` otherwise. */
  lemma DropMissingColumnWritesNothing(ws: WebStore, t: string, name: string)
    requires SchemaPrefix(ws.namespace, t) in ws.kv
    requires ws.kv[SchemaPrefix(ws.namespace, t)].SchemaRecord?
    requires !HasColumn(ws.kv[SchemaPrefix(ws.namespace, t)].schema.columns, name)
    ensures DropSafe(ws, t, name)
    ensures DropColumn(ws, t, name, true) == Done(ws, ())
    ensures DropColumn(ws, t, name, false) == Failed(ws, DroppingColumnNotFound(name))
  {
    HasColumnIffPosition(ws.kv[SchemaPrefix(ws.namespace, t)].schema.columns, name);
  }
}

=== FILE: web_storage.dfy ===
/** The keyed backend behind both `LocalStorage` and `SessionStorage`: the two
    are generated from one macro and differ only in which browser store backs
    them, so one model serves both. The browser store (getItem, setItem,
    removeItem) is the map `kv`; the backend itself owns only its namespace.
    Each table has three keys: an id-counter record, a schema and the whole
    serialised row list. */
module WebStorage {
  import opened Entities
  import opened Seqs
  import opened Items
  import opened Columns

  // ----- Key layout -----

  /** Versioned so that a backend revision never reads another revision's blobs. */
  const VersionPrefix: string := "__gluesql-v0.2__"

  datatype Role = IdRole | SchemaRole | DataRole

  function RoleTag(role: Role): string {
    match role
    case IdRole => "id"
    case SchemaRole => "schema"
    case DataRole => "data"
  }

  /** The part of every key that depends on the namespace alone. */
  function Head(namespace: string): string {
    VersionPrefix + "/" + namespace + "/"
  }

  /** `<prefix>/<namespace>/<role>/<table>`. */
  function ItemKey(namespace: string, role: Role, table: string): string {
    Head(namespace) + (RoleTag(role) + "/" + table)
  }

  function IdPrefix(namespace: string, table: string): string {
    ItemKey(namespace, IdRole, table)
  }

  function SchemaPrefix(namespace: string, table: string): string {
    ItemKey(namespace, SchemaRole, table)
  }

  function DataPrefix(namespace: string, table: string): string {
    ItemKey(namespace, DataRole, table)
  }

  lemma ConcatCancel(a: string, b: string, c: string)
    requires a + b == a + c
    ensures b == c
  {
    assert b == (a + b)[|a|..];
    assert c == (a + c)[|a|..];
  }

  /** Within one namespace two keys are equal exactly when role and table
      are: the three roles never collide, whatever the table names, and each
      role's key is injective in the table name. */
  lemma KeyInjective(namespace: string, r1: Role, t1: string, r2: Role, t2: string)
    ensures ItemKey(namespace, r1, t1) == ItemKey(namespace, r2, t2) <==> r1 == r2 && t1 == t2
  {
    if ItemKey(namespace, r1, t1) == ItemKey(namespace, r2, t2) {
      var s1 := RoleTag(r1) + "/" + t1;
      var s2 := RoleTag(r2) + "/" + t2;
      ConcatCancel(Head(namespace), s1, s2);
      assert s1[0] == RoleTag(r1)[0] && s2[0] == RoleTag(r2)[0];
      assert r1 == r2;
      assert s1 == RoleTag(r1) + ("/" + t1);
      assert s2 == RoleTag(r1) + ("/" + t2);
      ConcatCancel(RoleTag(r1), "/" + t1, "/" + t2);
      ConcatCancel("/", t1, t2);
    }
  }

  // ----- Stored blobs -----

  /** What a key holds. The serialised text is not modelled: a blob is one of
      the three records the backend writes, or something no decoder accepts
      (foreign or damaged data under the namespace). */
  datatype Blob = KeyRecord(key: Key) | SchemaRecord(schema: Schema) | RowsRecord(items: seq<Entry>) | Corrupt(text: string)

  /** Decoding is type-directed: a blob decodes only as the record it is. */
  function DecodeKey(b: Blob, at: string): (r: Result<Key>)
    ensures r.Ok? <==> b.KeyRecord?
    ensures r.Err? ==> r.error == Storage(at)
  {
    if b.KeyRecord? then Ok(b.key) else Err(Storage(at))
  }

  function DecodeSchema(b: Blob, at: string): (r: Result<Schema>)
    ensures r.Ok? <==> b.SchemaRecord?
    ensures r.Err? ==> r.error == Storage(at)
  {
    if b.SchemaRecord? then Ok(b.schema) else Err(Storage(at))
  }

  function DecodeRows(b: Blob, at: string): (r: Result<seq<Entry>>)
    ensures r.Ok? <==> b.RowsRecord?
    ensures r.Err? ==> r.error == Storage(at)
  {
    if b.RowsRecord? then Ok(b.items) else Err(Storage(at))
  }

  datatype WebStore = WebStore(namespace: string, kv: map<string, Blob>)

  /** getItem. */
  function Get(kv: map<string, Blob>, key: string): Option<Blob> {
    if key in kv then Some(kv[key]) else None
  }

  /** The row list under `key`: absent reads as empty, a blob must decode. */
  function LoadRows(kv: map<string, Blob>, key: string): (r: Result<seq<Entry>>)
    ensures key !in kv ==> r == Ok([])
    ensures key in kv && kv[key].RowsRecord? ==> r == Ok(kv[key].items)
    ensures key in kv && !kv[key].RowsRecord? ==> r == Err(Storage(key))
  {
    if key in kv then DecodeRows(kv[key], key) else Ok([])
  }

  /** The last id issued for `table`: 0 when no record exists. */
  function Counter(ws: WebStore, table: string): Result<nat> {
    var k := IdPrefix(ws.namespace, table);
    if k in ws.kv then
      match DecodeKey(ws.kv[k], k)
      case Ok(key) => Ok(key.id)
      case Err(e) => Err(e)
    else Ok(0)
  }

  /** `b` is `a` with only the keys in `keys` written or removed. */
  ghost predicate WritesOnly(a: WebStore, b: WebStore, keys: set<string>) {
    a.namespace == b.namespace && forall k :: k !in keys ==> Get(b.kv, k) == Get(a.kv, k)
  }

  // ----- Store: the read capability -----

  /** Absent schema key: no table. A blob that does not decode: an error. */
  function FetchSchema(ws: WebStore, table: string): (r: Result<Option<Schema>>)
    ensures SchemaPrefix(ws.namespace, table) !in ws.kv ==> r == Ok(None)
    ensures SchemaPrefix(ws.namespace, table) in ws.kv && ws.kv[SchemaPrefix(ws.namespace, table)].SchemaRecord? ==>
              r == Ok(Some(ws.kv[SchemaPrefix(ws.namespace, table)].schema))
    ensures r.Ok? && r.value.Some? ==> Get(ws.kv, SchemaPrefix(ws.namespace, table)) == Some(SchemaRecord(r.value.value))
    ensures r.Err? <==> SchemaPrefix(ws.namespace, table) in ws.kv && !ws.kv[SchemaPrefix(ws.namespace, table)].SchemaRecord?
    ensures r.Err? ==> r.error == Storage(SchemaPrefix(ws.namespace, table))
  {
    var k := SchemaPrefix(ws.namespace, table);
    if k in ws.kv then
      match DecodeSchema(ws.kv[k], k)
      case Ok(schema) => Ok(Some(schema))
      case Err(e) => Err(e)
    else Ok(None)
  }

  /** The stored row list in order, each row tagged with the requested table
      name; nothing when the data key is absent. */
  function ScanData(ws: WebStore, table: string): (r: Result<seq<(Key, Row)>>)
    ensures DataPrefix(ws.namespace, table) !in ws.kv ==> r == Ok([])
    ensures r.Err? <==> LoadRows(ws.kv, DataPrefix(ws.namespace, table)).Err?
    ensures r.Err? ==> r.error == Storage(DataPrefix(ws.namespace, table))
    ensures r.Ok? && LoadRows(ws.kv, DataPrefix(ws.namespace, table)).Ok? ==>
              var items := LoadRows(ws.kv, DataPrefix(ws.namespace, table)).value;
              && |r.value| == |items|
              && forall k :: 0 <= k < |r.value| ==> r.value[k] == (Key(table, items[k].0), items[k].1)
  {
    match LoadRows(ws.kv, DataPrefix(ws.namespace, table))
    case Ok(items) => Ok(Scan(table, items))
    case Err(e) => Err(e)
  }

  // ----- StoreMut: the mutate capability -----

  /** Reads the table's id record (absent: 0), adds one and writes the new
      record back. A record that does not decode is an error with no write. */
  function GenerateId(ws: WebStore, table: string): (r: MutResult<WebStore, Key>)
    ensures Counter(ws, table).Err? ==> r == Failed(ws, Storage(IdPrefix(ws.namespace, table)))
    ensures Counter(ws, table).Ok? ==>
              && r.Done?
              && r.value == Key(table, Counter(ws, table).value + 1)
              && Counter(r.store, table) == Ok(r.value.id)
    ensures IdPrefix(ws.namespace, table) !in ws.kv ==> r.Done? && r.value.id == 1
    ensures WritesOnly(ws, r.store, {IdPrefix(ws.namespace, table)})
  {
    var prefix := IdPrefix(ws.namespace, table);
    if prefix in ws.kv then
      match DecodeKey(ws.kv[prefix], prefix)
      case Err(e) => Failed(ws, e)
      case Ok(stored) =>
        var key := Key(table, stored.id + 1);
        Done(ws.(kv := ws.kv[prefix := KeyRecord(key)]), key)
    else
      var key := Key(table, 1);
      Done(ws.(kv := ws.kv[prefix := KeyRecord(key)]), key)
  }

  function InsertSchema(ws: WebStore, schema: Schema): (r: MutResult<WebStore, ()>)
    ensures r.Done?
    ensures FetchSchema(r.store, schema.tableName) == Ok(Some(schema))
    ensures WritesOnly(ws, r.store, {SchemaPrefix(ws.namespace, schema.tableName)})
  {
    var prefix := SchemaPrefix(ws.namespace, schema.tableName);
    Done(ws.(kv := ws.kv[prefix := SchemaRecord(schema)]), ())
  }

  /** Removes the schema key and the data key; the id record stays. */
  function DeleteSchema(ws: WebStore, table: string): (r: MutResult<WebStore, ()>)
    ensures r.Done?
    ensures FetchSchema(r.store, table) == Ok(None) && ScanData(r.store, table) == Ok([])
    ensures SchemaPrefix(ws.namespace, table) !in r.store.kv && DataPrefix(ws.namespace, table) !in r.store.kv
    ensures Get(r.store.kv, IdPrefix(ws.namespace, table)) == Get(ws.kv, IdPrefix(ws.namespace, table))
    ensures WritesOnly(ws, r.store, {SchemaPrefix(ws.namespace, table), DataPrefix(ws.namespace, table)})
  {
    var schemaPrefix := SchemaPrefix(ws.namespace, table);
    var dataPrefix := DataPrefix(ws.namespace, table);
    KeyInjective(ws.namespace, IdRole, table, SchemaRole, table);
    KeyInjective(ws.namespace, IdRole, table, DataRole, table);
    Done(ws.(kv := ws.kv - {schemaPrefix} - {dataPrefix}), ())
  }

  /** Decodes the whole row list (absent: empty), upserts, writes it back. */
  function InsertData(ws: WebStore, key: Key, row: Row): (r: MutResult<WebStore, ()>)
    ensures var dk := DataPrefix(ws.namespace, key.tableName);
            && (LoadRows(ws.kv, dk).Err? ==> r == Failed(ws, Storage(dk)))
            && (LoadRows(ws.kv, dk).Ok? ==>
                  r.Done? && Get(r.store.kv, dk) == Some(RowsRecord(Upsert(LoadRows(ws.kv, dk).value, key.id, row))))
            && WritesOnly(ws, r.store, {dk})
  {
    var prefix := DataPrefix(ws.namespace, key.tableName);
    match LoadRows(ws.kv, prefix)
    case Err(e) => Failed(ws, e)
    case Ok(items) =>
      Done(ws.(kv := ws.kv[prefix := RowsRecord(Upsert(items, key.id, row))]), ())
  }

  /** Decodes the whole row list (absent: empty), removes the first entry
      with the id, writes the list back. */
  function DeleteData(ws: WebStore, key: Key): (r: MutResult<WebStore, ()>)
    ensures var dk := DataPrefix(ws.namespace, key.tableName);
            && (LoadRows(ws.kv, dk).Err? ==> r == Failed(ws, Storage(dk)))
            && (LoadRows(ws.kv, dk).Ok? ==>
                  r.Done? && Get(r.store.kv, dk) == Some(RowsRecord(RemoveFirst(LoadRows(ws.kv, dk).value, key.id))))
            && WritesOnly(ws, r.store, {dk})
  {
    var prefix := DataPrefix(ws.namespace, key.tableName);
    match LoadRows(ws.kv, prefix)
    case Err(e) => Failed(ws, e)
    case Ok(items) =>
      Done(ws.(kv := ws.kv[prefix := RowsRecord(RemoveFirst(items, key.id))]), ())
  }

  // ----- AlterTable: the alter capability -----

  /** Writes the renamed schema under the new key, then removes the old
      schema key, then copies the raw data blob to the new data key when one
      exists. The old data key and the id records are left alone. */
  function RenameSchema(ws: WebStore, table: string, newTable: string): (r: MutResult<WebStore, ()>)
    ensures var sk := SchemaPrefix(ws.namespace, table);
            && (sk !in ws.kv ==> r == Failed(ws, TableNotFound(table)))
            && (sk in ws.kv && !ws.kv[sk].SchemaRecord? ==> r == Failed(ws, Storage(sk)))
            && (sk in ws.kv && ws.kv[sk].SchemaRecord? ==> r.Done?)
    ensures r.Done? ==>
              var before := ws.kv[SchemaPrefix(ws.namespace, table)].schema;
              var dk := DataPrefix(ws.namespace, table);
              var ndk := DataPrefix(ws.namespace, newTable);
              && (newTable != table ==>
                    FetchSchema(r.store, newTable) == Ok(Some(before.(tableName := newTable))))
              && FetchSchema(r.store, table) == Ok(None)
              && Get(r.store.kv, ndk) == (if dk in ws.kv then Get(ws.kv, dk) else Get(ws.kv, ndk))
              && Get(r.store.kv, dk) == Get(ws.kv, dk)
    ensures WritesOnly(ws, r.store, {SchemaPrefix(ws.namespace, table), SchemaPrefix(ws.namespace, newTable),
                                     DataPrefix(ws.namespace, newTable)})
  {
    var ns := ws.namespace;
    var schemaPrefix := SchemaPrefix(ns, table);
    if schemaPrefix !in ws.kv then Failed(ws, TableNotFound(table))
    else
      match DecodeSchema(ws.kv[schemaPrefix], schemaPrefix)
      case Err(e) => Failed(ws, e)
      case Ok(schema) =>
        var newSchemaPrefix := SchemaPrefix(ns, newTable);
        var kv1 := ws.kv[newSchemaPrefix := SchemaRecord(schema.(tableName := newTable))] - {schemaPrefix};
        var dataPrefix := DataPrefix(ns, table);
        var newDataPrefix := DataPrefix(ns, newTable);
        KeyInjective(ns, SchemaRole, table, DataRole, table);
        KeyInjective(ns, SchemaRole, newTable, DataRole, table);
        KeyInjective(ns, SchemaRole, table, DataRole, newTable);
        KeyInjective(ns, SchemaRole, newTable, DataRole, newTable);
        KeyInjective(ns, DataRole, table, DataRole, newTable);
        KeyInjective(ns, SchemaRole, table, SchemaRole, newTable);
        var kv2 := if dataPrefix in kv1 then kv1[newDataPrefix := kv1[dataPrefix]] else kv1;
        Done(ws.(kv := kv2), ())
  }

  /** Renames the first column called `oldName` and writes the schema back;
      the rows are not read. Errors come before any write. */
  function RenameColumn(ws: WebStore, table: string, oldName: string, newName: string): (r: MutResult<WebStore, ()>)
    ensures var sk := SchemaPrefix(ws.namespace, table);
            && (sk !in ws.kv ==> r == Failed(ws, TableNotFound(table)))
            && (sk in ws.kv && !ws.kv[sk].SchemaRecord? ==> r == Failed(ws, Storage(sk)))
            && (sk in ws.kv && ws.kv[sk].SchemaRecord? && !HasColumn(ws.kv[sk].schema.columns, oldName) ==>
                  r == Failed(ws, RenamingColumnNotFound))
            && (sk in ws.kv && ws.kv[sk].SchemaRecord? && HasColumn(ws.kv[sk].schema.columns, oldName) ==>
                  var before := ws.kv[sk].schema;
                  var i := ColumnPosition(before.columns, oldName).value;
                  && r.Done?
                  && before.columns[i].name == oldName
                  && FetchSchema(r.store, table) == Ok(Some(before.(columns := RenameColumnAt(before.columns, i, newName)))))
            && WritesOnly(ws, r.store, {sk})
  {
    var prefix := SchemaPrefix(ws.namespace, table);
    if prefix !in ws.kv then Failed(ws, TableNotFound(table))
    else
      match DecodeSchema(ws.kv[prefix], prefix)
      case Err(e) => Failed(ws, e)
      case Ok(schema) =>
        HasColumnIffPosition(schema.columns, oldName);
        match ColumnPosition(schema.columns, oldName)
        case None => Failed(ws, RenamingColumnNotFound)
        case Some(i) =>
          var renamed := schema.(columns := RenameColumnAt(schema.columns, i, newName));
          Done(ws.(kv := ws.kv[prefix := SchemaRecord(renamed)]), ())
  }

  /** Checks the table, the name and the fill value, then writes the widened
      schema, then decodes the rows, appends the fill value to each and
      writes them back. A row blob that does not decode is reported after the
      schema has been written: that failure leaves a partial write. */
  function AddColumn(ws: WebStore, table: string, c: ColumnDef, ev: Evaluator): (r: MutResult<WebStore, ()>)
    ensures var sk := SchemaPrefix(ws.namespace, table);
            && (sk !in ws.kv ==> r == Failed(ws, TableNotFound(table)))
            && (sk in ws.kv && !ws.kv[sk].SchemaRecord? ==> r == Failed(ws, Storage(sk)))
            && (sk in ws.kv && ws.kv[sk].SchemaRecord? && HasColumn(ws.kv[sk].schema.columns, c.name) ==>
                  r == Failed(ws, AddingColumnAlreadyExists(c.name)))
            && ((sk in ws.kv && ws.kv[sk].SchemaRecord? && !HasColumn(ws.kv[sk].schema.columns, c.name)
                 && FillValue(c, ev).Err?) ==> r == Failed(ws, FillValue(c, ev).error))
    ensures var sk := SchemaPrefix(ws.namespace, table);
            var dk := DataPrefix(ws.namespace, table);
            sk in ws.kv && ws.kv[sk].SchemaRecord? && !HasColumn(ws.kv[sk].schema.columns, c.name) && FillValue(c, ev).Ok? ==>
              && FetchSchema(r.store, table) == Ok(Some(ws.kv[sk].schema.(columns := ws.kv[sk].schema.columns + [c])))
              && (LoadRows(ws.kv, dk).Err? ==> r.Failed? && r.error == Storage(dk) && Get(r.store.kv, dk) == Get(ws.kv, dk))
              && (LoadRows(ws.kv, dk).Ok? ==>
                    r.Done? && Get(r.store.kv, dk) == Some(RowsRecord(AppendValue(LoadRows(ws.kv, dk).value, FillValue(c, ev).value))))
    ensures WritesOnly(ws, r.store, {SchemaPrefix(ws.namespace, table), DataPrefix(ws.namespace, table)})
  {
    var schemaPrefix := SchemaPrefix(ws.namespace, table);
    if schemaPrefix !in ws.kv then Failed(ws, TableNotFound(table))
    else
      match DecodeSchema(ws.kv[schemaPrefix], schemaPrefix)
      case Err(e) => Failed(ws, e)
      case Ok(schema) =>
        if HasColumn(schema.columns, c.name) then Failed(ws, AddingColumnAlreadyExists(c.name))
        else
          match FillValue(c, ev)
          case Err(e) => Failed(ws, e)
          case Ok(v) =>
            var kv1 := ws.kv[schemaPrefix := SchemaRecord(schema.(columns := schema.columns + [c]))];
            var dataPrefix := DataPrefix(ws.namespace, table);
            KeyInjective(ws.namespace, SchemaRole, table, DataRole, table);
            match LoadRows(kv1, dataPrefix)
            case Err(e) => Failed(ws.(kv := kv1), e)
            case Ok(items) =>
              Done(ws.(kv := kv1[dataPrefix := RowsRecord(AppendValue(items, v))]), ())
  }

  /** As for the in-memory backend: `Vec::remove` on a row too short for the
      column's position panics, and this is the condition under which no row is. */
  ghost predicate DropSafe(ws: WebStore, table: string, name: string) {
    var sk := SchemaPrefix(ws.namespace, table);
    var dk := DataPrefix(ws.namespace, table);
    sk in ws.kv && ws.kv[sk].SchemaRecord? && ColumnPosition(ws.kv[sk].schema.columns, name).Some?
    && LoadRows(ws.kv, dk).Ok?
    ==> RowsLongerThan(LoadRows(ws.kv, dk).value, ColumnPosition(ws.kv[sk].schema.columns, name).value)
  }

  /** Finds the column, writes the narrowed schema, then decodes the rows,
      removes the same position from each and writes them back. A missing
      column is a success without write under IF EXISTS and an error without
      write otherwise; a row blob that does not decode is reported after the
      schema has been written. */
  function DropColumn(ws: WebStore, table: string, name: string, ifExists: bool): (r: MutResult<WebStore, ()>)
    requires DropSafe(ws, table, name)
    ensures var sk := SchemaPrefix(ws.namespace, table);
            && (sk !in ws.kv ==> r == Failed(ws, TableNotFound(table)))
            && (sk in ws.kv && !ws.kv[sk].SchemaRecord? ==> r == Failed(ws, Storage(sk)))
            && (sk in ws.kv && ws.kv[sk].SchemaRecord? && !HasColumn(ws.kv[sk].schema.columns, name) ==>
                  r == if ifExists then Done(ws, ()) else Failed(ws, DroppingColumnNotFound(name)))
    ensures var sk := SchemaPrefix(ws.namespace, table);
            var dk := DataPrefix(ws.namespace, table);
            sk in ws.kv && ws.kv[sk].SchemaRecord? && HasColumn(ws.kv[sk].schema.columns, name) ==>
              var before := ws.kv[sk].schema;
              var i := ColumnPosition(before.columns, name).value;
              && before.columns[i].name == name
              && FetchSchema(r.store, table) == Ok(Some(before.(columns := RemoveAt(before.columns, i))))
              && (LoadRows(ws.kv, dk).Err? ==> r.Failed? && r.error == Storage(dk) && Get(r.store.kv, dk) == Get(ws.kv, dk))
              && (LoadRows(ws.kv, dk).Ok? ==>
                    r.Done? && Get(r.store.kv, dk) == Some(RowsRecord(DropValue(LoadRows(ws.kv, dk).value, i))))
    ensures WritesOnly(ws, r.store, {SchemaPrefix(ws.namespace, table), DataPrefix(ws.namespace, table)})
  {
    var schemaPrefix := SchemaPrefix(ws.namespace, table);
    if schemaPrefix !in ws.kv then Failed(ws, TableNotFound(table))
    else
      match DecodeSchema(ws.kv[schemaPrefix], schemaPrefix)
      case Err(e) => Failed(ws, e)
      case Ok(schema) =>
        HasColumnIffPosition(schema.columns, name);
        match ColumnPosition(schema.columns, name)
        case None =>
          if ifExists then Done(ws, ()) else Failed(ws, DroppingColumnNotFound(name))
        case Some(i) =>
          var kv1 := ws.kv[schemaPrefix := SchemaRecord(schema.(columns := RemoveAt(schema.columns, i)))];
          var dataPrefix := DataPrefix(ws.namespace, table);
          KeyInjective(ws.namespace, SchemaRole, table, DataRole, table);
          match LoadRows(kv1, dataPrefix)
          case Err(e) => Failed(ws.(kv := kv1), e)
          case Ok(items) =>
            Done(ws.(kv := kv1[dataPrefix := RowsRecord(DropValue(items, i))]), ())
  }
}
